=== FILE: README.md ===
# Klipper API server protocol layer, modelled in Dafny

This project models the protocol layer of Klipper's local API socket
(`klippy/webhooks.py`): how a client connection frames and decodes requests,
how a request object collects exactly one response, how the endpoint table
dispatches a request and decides between a recoverable error and a host
shutdown, how replies are buffered and flushed with a bounded retry counter,
and how the status subscription engine validates, merges and pushes object
status to its subscribers.

The socket, the event loop and the printer are inputs, not code:

- a `recv` is a `RecvResult` (data, or an error number);
- the `send` calls of one flush are a function `env: nat -> SendResult` from
  attempt number to outcome;
- the event loop's deferred callbacks are a task queue (`Reactor.tasks`);
- the subscription timer is a flag (armed now, or parked at NEVER);
- shutdown requests are recorded by `Printer.InvokeShutdown`;
- printer objects are a map from name to status, with callable attributes
  flagged;
- `json.dumps`/`json.loads` are an abstract `Codec`, whose well-formedness
  (no raw `\x03` in an encoding, decoding inverts encoding) is a hypothesis
  of the lemmas that need it.

A handler's own logic is abstracted as a `Behavior`: the values it passes
to `send`, then how it ends (returns, raises a `CommandError`, or raises
anything else). Two built-in subscription endpoints are modelled as methods:
`objects/subscription` (`HandleSubscriptionRequest`) and `subscribe_gcode_output`
(`HandleSubscribeGCodeOutput`), with the restrictions listed under
"## Left out". Under dispatch (`ProcessRequest`) they too are `Behavior`s.

Modules, in dependency order: `Wrappers` (Option, Result), `JsonValues`
(the JSON value type), `Framing` (split/receive/frame text, the codec
hypothesis), `Protocol` (errors, request parsing, the handler and dispatch
semantics as functions), `Subscriptions` (the merge of subscription requests
and the field selection, as functions), `Connection` (classes `Reactor`,
`Printer`, `WebRequest`, `WebHooks`, `ServerSocket`, `ClientConnection`) and
`Status` (the broadcast push, classes `GCodeOutputHelper` and
`StatusHandler`).

Three behaviours are modelled as the code has them, although a different
design would be just as natural:

- `_handle_restart` parks the timer but leaves `timer_started` set. A
  subscription after a restart therefore does not re-arm the timer; the
  timer is not restarted lazily on the next subscription.
- `_handle_restart` does not clear the catalog either. The catalog is only
  rebuilt by the next `_handle_ready`; it is not cleared when the host
  stops being ready.
- A request still queued when its connection closes is processed, and its
  reply is appended to the closed connection's buffer. Such tasks are not
  turned into no-ops.

## Model

| member | source | states |
|---|---|---|
| Framing.Split | klippy/webhooks.py:190 | `data.split('\x03')` gives at least one segment and no segment holds the terminator |
| Framing.JoinSplit | klippy/webhooks.py:190 | joining the split segments with the terminator gives back the input |
| Framing.JoinPrepend | klippy/webhooks.py:191 | putting the kept partial data in front of the first segment puts it in front of the joined text |
| Framing.JoinFrames | klippy/webhooks.py:192 | popping the last segment leaves frames that, each terminated, followed by the popped tail, make up the joined text |
| Framing.FramesAppend | klippy/webhooks.py:193-204 | the wire text of two runs of frames is the concatenation of their wire texts |
| Framing.Receive | klippy/webhooks.py:190-192 | old partial data plus the new bytes equals each produced frame followed by `\x03`, then the new partial data; if the old partial data had no terminator, no frame and no new partial data has one |
| Framing.TerminatorInside | klippy/webhooks.py:190-192 | two terminated heads of one text of different length put a terminator inside the longer one |
| Framing.HeadNotLonger | klippy/webhooks.py:190-192 | a terminator-free head is no longer than any other terminated head of the same text |
| Framing.FirstFrame | klippy/webhooks.py:190-192 | two terminator-free terminated heads of the same text are equal, and so are the rests |
| Framing.NoFrameInTail | klippy/webhooks.py:192 | text that still contains a complete frame contains a terminator, so it cannot be the kept tail |
| Framing.FramesUnique | klippy/webhooks.py:190-192 | the cut of a stream into terminated frames and an unterminated tail is unique |
| Framing.ReceiveChunked | klippy/webhooks.py:176-192 | two reads deliver the same frames, in order, and keep the same tail as one read of the concatenated bytes |
| Framing.SameFramesAcrossReads | klippy/webhooks.py:190-192 | any cut of the two reads and of the single read into terminator-free frames and tail yields the same frames, in order, and the same tail |
| Framing.WireRoundTrip | klippy/webhooks.py:190-192 | under a well-formed codec, messages encoded and terminated one after another are received as exactly those messages with an empty tail |
| Protocol.WebRequestError.ToDict | klippy/webhooks.py:38-41 | the error payload has exactly the keys `error` ("WebRequestError") and `message`, the latter the error's message |
| Protocol.ParseRequest | klippy/webhooks.py:48-53 | a decoded frame becomes the request carrying its `id`, `path` and `args`; `ParseRequestRoundTrip` proves it inverts the client's request frame |
| Protocol.ParseRequestRoundTrip | klippy/webhooks.py:48-53 | a request frame carrying `id`, `path` and `args` parses back to the same request |
| Protocol.DecodeFrame | klippy/webhooks.py:196-202 | a frame is JSON-decoded and turned into a request; a failure at either step drops it; `MalformedFrameDropped` states the effect |
| Protocol.DecodeRequests | klippy/webhooks.py:193-204 | the requests scheduled for a run of frames: at most one per frame; `DecodeRequestsAppend`, `DecodeRequestsPrefix` and `RequestsRoundTrip` state their order and completeness |
| Protocol.DecodeRequestsAppend | klippy/webhooks.py:193-204 | decoding two runs of frames schedules the requests of the first run, then those of the second |
| Protocol.DecodeRequestsPrefix | klippy/webhooks.py:193-202 | handling one more frame appends its request, when it decodes, after the requests already decoded |
| Protocol.MalformedFrameDropped | klippy/webhooks.py:196-202 | a frame that fails to decode is dropped and the frames around it are decoded as if it were absent |
| Protocol.RequestsRoundTrip | klippy/webhooks.py:190-204 | under a well-formed codec, every request a client writes is scheduled once, in order, unchanged |
| Protocol.RequestsOverTwoReads | klippy/webhooks.py:176-204 | however the bytes of a client's request frames are cut into two reads, the requests decoded from the first read followed by those of the second are exactly the requests written, and no tail is kept |
| Protocol.RunHandler | klippy/webhooks.py:80-83 | a handler's sends applied to the response in order; its single-assignment behaviour is `RunHandlerSingleAssignment` |
| Protocol.RunHandlerSingleAssignment | klippy/webhooks.py:80-83 | a handler's first non-null send sets the response and stays; a later send raises "Multiple calls to send not allowed"; the response stays unset exactly when every send passed null |
| Protocol.Finished | klippy/webhooks.py:85-90 | `finish` never leaves the response unset: an unset response becomes "ok", a set one is kept |
| Protocol.Dispatch | klippy/webhooks.py:206-217 | the response before `finish` and the shutdown reason of one dispatch; `DispatchPolicy` states the policy |
| Protocol.DispatchPolicy | klippy/webhooks.py:206-221 | an unregistered path yields the "No registered callback" error payload and no shutdown; a CommandError yields an error payload and no shutdown; any other exception yields an error payload and exactly one shutdown with "Internal Error on WebRequest: path"; a second send yields the "Multiple calls" error; the response stays unset only for a clean handler that sent nothing but null |
| Connection.Reactor.RegisterCallback | klippy/webhooks.py:203-204 | a deferred callback joins the end of the task queue |
| Connection.Printer.InvokeShutdown | klippy/webhooks.py:217 | a shutdown request is recorded once, with its message |
| Connection.RequestTasksAppend | klippy/webhooks.py:203-204 | scheduling one more request object appends exactly its `_process_request` task |
| Connection.CarriesAppend | klippy/webhooks.py:197-204 | a new request object built from a decoded request extends the correspondence between objects and requests by one |
| Connection.WebRequest.constructor | klippy/webhooks.py:48-53 | a new request carries its connection, id, path and args, with no response |
| Connection.WebRequest.Get | klippy/webhooks.py:58-63 | a present argument is returned; a missing one gives the default when one is passed, else the "Invalid Argument [item]" error |
| Connection.WebRequest.Send | klippy/webhooks.py:80-83 | the first send stores its value; a send on a set response raises "Multiple calls to send not allowed" and keeps the first value |
| Connection.WebRequest.SetError | klippy/webhooks.py:77-78 | the error payload replaces whatever response was set |
| Connection.WebRequest.Finish | klippy/webhooks.py:85-90 | the response becomes "ok" if unset, and the result is `{"request_id": id, "response": response}` |
| Connection.CallHandler | klippy/webhooks.py:208-210 | running a handler leaves the response and the raised outcome that `RunHandler` specifies |
| Connection.HandleEstopRequest | klippy/webhooks.py:281-282 | the emergency stop asks the host for exactly one shutdown, "Shutdown due to webhooks request", sends nothing and returns normally |
| Connection.WebHooks.constructor | klippy/webhooks.py:254-258 | the table starts with `list_endpoints`, `info` and `emergency_stop` |
| Connection.WebHooks.RegisterEndpoint | klippy/webhooks.py:261-264 | a new path is added with its callback and can then be looked up; a present path raises "Path already registered to an endpoint" and leaves the table unchanged |
| Connection.WebHooks.GetCallback | klippy/webhooks.py:287-293 | succeeds exactly for registered paths, with their callback; otherwise the "No registered callback for path" error |
| Connection.ServerSocket.PopClient | klippy/webhooks.py:144-145 | removes the connection from the table, and does nothing when it is absent |
| Connection.ServerSocket.HandleAccept | klippy/webhooks.py:115-122 | an accepted socket becomes a fresh open connection, added to the table with empty buffers; a failed accept changes nothing |
| Connection.ServerSocket.HandleDisconnect | klippy/webhooks.py:124-126 | every live connection is closed and the table ends empty; only the connections' open flags change |
| Connection.Retryable | klippy/webhooks.py:234-241 | a send error other than EBADF and EPIPE, which the loop retries after a pause |
| Connection.Stall | klippy/webhooks.py:230-242 | the number of retryable errors in a row before an attempt; `StallIsRun` proves it is exactly that run |
| Connection.StallIsRun | klippy/webhooks.py:230-242 | the attempts counted by `Stall` are retryable errors and the one before them is not |
| Connection.GivesUp | klippy/webhooks.py:234-250 | an attempt that ends the flush; `GivesUpWhen` characterises it by the loop's branches |
| Connection.GivesUpWhen | klippy/webhooks.py:234-250 | an attempt ends the flush exactly when it accepted nothing and is not a retryable error with retries left |
| Connection.FlushOutcomeUnique | klippy/webhooks.py:229-250 | the `send` outcomes determine the flush: the buffer left, the number of attempts and whether it gave up |
| Connection.OneBytePerSend | klippy/webhooks.py:231-246 | a socket accepting one byte per `send` is flushed in exactly one attempt per byte, without giving up |
| Connection.BrokenPipeGivesUp | klippy/webhooks.py:234-250 | a broken pipe on the first `send` ends the flush after that one attempt with the whole buffer left |
| Connection.ClientConnection.constructor | klippy/webhooks.py:148-160 | a new connection is open, shares its server's collaborators and has empty buffers |
| Connection.ClientConnection.IsClosed | klippy/webhooks.py:173-174 | holds exactly once the connection was closed; `Close` establishes it |
| Connection.ClientConnection.Close | klippy/webhooks.py:162-174 | after `close`, `is_closed` holds and the connection is gone from the server; closing twice changes nothing the second time |
| Connection.ClientConnection.ProcessReceived | klippy/webhooks.py:176-204 | a non-EBADF error changes nothing; an empty read or EBADF closes; otherwise the kept tail is `Receive`'s, and the queue gains, after its old tasks, one `_process_request` task per new request object; those objects are fresh and carry, in order, the id, path and args of each decodable frame, with this connection, and an unset response |
| Connection.ClientConnection.ScheduleRequests | klippy/webhooks.py:193-204 | one fresh request object per decodable frame, carrying that frame's request and this connection, each scheduled after the existing queue in frame order; every new object starts with an unset response; malformed frames add neither an object nor a task |
| Connection.ClientConnection.ProcessRequest | klippy/webhooks.py:206-221 | the final response is `finish` applied to the dispatch outcome; the shutdown list grows by exactly the dispatch's shutdown message; exactly one reply `{"method": "response", "params": finish()}` is appended to the buffer |
| Connection.ClientConnection.Send | klippy/webhooks.py:223-227 | appends the encoding plus `\x03`, and schedules a flush only when none was pending |
| Connection.ClientConnection.Flush | klippy/webhooks.py:229-250 | `FlushOutcome`: the buffer loses exactly the bytes `send` accepted, in order; every attempt is made on a non-empty buffer; the run gives up (zero bytes, EBADF, EPIPE, or an error after 10 retries in a row) exactly when bytes are left, and only at its last attempt; never more than 10 retryable errors in a row |
| Connection.ClientConnection.DoSend | klippy/webhooks.py:229-251 | `FlushOutcome` as for `Flush`; the connection is closed exactly when bytes are left; on exit `is_sending_data` is false |
| Status.PushMessage | klippy/webhooks.py:312-313 | a copy of the client's template with `params` set to `{key: payload}`; `PushKeepsTemplate` states it |
| Status.PushKeepsTemplate | klippy/webhooks.py:312-313 | the push message has the template's fields plus `params`, which is `{key: payload}`, and keeps every other field unchanged |
| Status.Broadcast | klippy/webhooks.py:307-314 | closed connections leave the table and are untouched; every open one gets its template with `params` set to `{key: payload}`, encoded and terminated, and has a flush pending; the queue keeps its old tasks and gains one flush each, no task twice, for exactly the open ones that had none pending |
| Status.GCodeOutputHelper.constructor | klippy/webhooks.py:300-306 | registers `subscribe_gcode_output`; no clients, output handler not registered |
| Status.GCodeOutputHelper.GCodeCallback | klippy/webhooks.py:307-314 | each open subscriber receives `{"response": msg}` in its template and has a flush pending; closed ones are dropped and untouched; one new flush each, no task twice, for exactly the open subscribers that had none pending |
| Status.GCodeOutputHelper.HandleSubscribeGCodeOutput | klippy/webhooks.py:315-322 | the requester is recorded with its template (default `{}`), and the output handler is handed over exactly once |
| Status.StatusHandler.constructor | klippy/webhooks.py:327-351 | registers the four `objects/...` endpoints; not ready, timer parked, empty tables |
| Status.StatusHandler.HandleReady | klippy/webhooks.py:353-361 | the catalog becomes each status-reporting object's field names, and the handler is ready |
| Status.StatusHandler.HandleRestart | klippy/webhooks.py:363-365 | not ready and timer parked; `timer_started` kept |
| Status.StatusHandler.ProcessStatusRequest | klippy/webhooks.py:378-395 | not ready gives exactly `{"status": "Klippy Not Ready"}`; ready gives the requested objects that exist and are in the catalog, each with exactly its non-callable fields (all of them for an empty request, else the requested ones) and their values |
| Status.StatusHandler.BatchSubscriptionHandler | klippy/webhooks.py:367-376 | the status of the subscribed fields is computed once and pushed to every open subscriber as `{"status": ...}`, each then with a flush pending; closed ones are dropped and untouched; one new flush each, no task twice, for exactly the open subscribers that had none pending |
| Status.StatusHandler.MergeEntry | klippy/webhooks.py:428-451 | one entry: unknown fields removed, skipped when none remain, merged with the current entry, as `MergeOne` specifies |
| Status.StatusHandler.AddSubscription | klippy/webhooks.py:419-454 | an empty request changes nothing and starts no timer; otherwise the table becomes `Merge` of the old table and the request, and the timer is armed only if it never was before |
| Status.StatusHandler.HandleSubscriptionRequest | klippy/webhooks.py:406-414 | empty arguments raise "Invalid argument"; otherwise the whole argument table, template included, is merged and the requester is recorded with its template; the timer is armed if it was armed or had never been started, so the first subscription arms it and one after a restart does not |
| Subscriptions.Merge | klippy/webhooks.py:419-451 | the table keeps its entries and gains the accepted objects; untouched entries are unchanged; a new entry is the valid requested fields; a merged entry is "all" when either side is "all" and otherwise the union of the old entry and the valid requested fields |
| Subscriptions.ValidFields | klippy/webhooks.py:429-438 | the requested fields the object has: none of other objects' fields, "all" for an "all" request, otherwise exactly the requested catalog fields |
| Subscriptions.MergeFields | klippy/webhooks.py:441-449 | the merged field set covers both sides, adds nothing else, and is "all" only when one side was |
| Subscriptions.MergeOne | klippy/webhooks.py:428-451 | one entry of the loop: adds its object exactly when it survives validation, leaves every other entry unchanged, and the new entry covers the old one and the valid requested fields |
| Subscriptions.MergeStep | klippy/webhooks.py:421-451 | the loop over request entries is one `MergeOne` pass per entry |
| Subscriptions.MergeStepAt | klippy/webhooks.py:421-451 | one pass agrees with the whole merge at every key |
| Subscriptions.AcceptedKeysStep | klippy/webhooks.py:423-438 | adding an entry adds its object to the accepted set exactly when it survives validation |
| Subscriptions.MergeIdempotent | klippy/webhooks.py:439-451 | re-submitting a merged request changes nothing |
| Subscriptions.MergeFieldsSwap | klippy/webhooks.py:441-448 | merging field sets is commutative, and so is merging into an entry in either order |
| Subscriptions.MergeCommutesAt | klippy/webhooks.py:419-451 | two requests merged in either order agree at every object |
| Subscriptions.MergeCommutes | klippy/webhooks.py:419-451 | two requests merged in either order give the same table |
| Subscriptions.AllFieldsSticky | klippy/webhooks.py:441-444 | an "all fields" entry stays "all fields" whatever is merged into it |
| Subscriptions.MergeWithinCatalog | klippy/webhooks.py:423-438 | unknown objects and unknown fields never enter the table |
| Subscriptions.UnknownKeySkipped | klippy/webhooks.py:423-427 | a key that is not a catalog object, such as `response_template`, has no effect on the merge |
| Subscriptions.SelectFields | klippy/webhooks.py:385-393 | selects exactly the non-callable fields of the status that the request names (all of them for an empty request), with their values |
| Subscriptions.SelectCovered | klippy/webhooks.py:385-393 | an entry that covers a request selects every field the request selects, with the same value |
| Subscriptions.PushCarriesSubscribedFields | klippy/webhooks.py:367-393 | after a merge, every valid field a request asked for reaches the status push with its value |
| Subscriptions.RestrictStep | klippy/webhooks.py:421 | the entries handled so far grow by one entry per pass |

## Left out

- Socket and file setup (`ServerSocket.__init__`, `_remove_socket_file`, `register_fd`/`unregister_fd`, closing the OS sockets) is OS I/O; a connection's open state stands for its `fd_handle`.
- The `recv` size limit of 4096 bytes is not modelled; a read is any string.
- Reactor timing is left out: `monotonic`, the 1 ms pause between retries, `SUBSCRIPTION_REFRESH_TIME` and the batch handler's next wake time are floating point. The timer is a flag, and a pause is a step with no effect.
- JSON numbers are integers only (`JNumber(n: int)`): floating-point status values and request ids cannot be represented.
- `json.dumps`, `json.loads`, `byteify` and `json_loads_byteified` are the abstract `Codec`. Python 2 unicode normalisation is not modelled.
- Connection uids are object identities, so the server's table is a set of connections and a request object's `client_conn` is the connection itself, not its uid.
- `_handle_info_request`, `_handle_list_endpoints`, `_handle_object_request`, `_handle_status_request` and `_handle_list_subscription_request` are not part of this model: they read the environment or only pass a table to `send`. Under dispatch they are `Behavior`s like any other handler. `_handle_estop_request` is modelled on its own (`HandleEstopRequest`); under dispatch its shutdown is not part of its `Behavior`.
- `get_int`, `get_float`, `get_args`, `get_path`, `get_client_connection`, `get_connection` and `get_status` are plain accessors or conversions and are not modelled.
- `logging` calls are left out.
- Handler internals are the `Behavior` parameter: what a module's handler computes is outside this layer.
- Protocol.ParseRequest: a decoded frame whose `path` is not a string or whose `args` is not an object is dropped without a reply. The source builds the request anyway. A number, `null` or boolean `path` is then answered with the "No registered callback" error. A list or object `path` makes the endpoint lookup raise, which is answered with an error reply and a host shutdown. A non-object `args` is answered normally by a handler that does not read it.
- Status.StatusHandler.AddSubscription: requires every entry that names a catalog object to be a list of strings. The source takes other values too. A non-empty string acts as the set of its characters and is usually dropped as invalid. A non-empty object acts as the list of its keys. A falsy value (`null`, `false`, `0`, an empty string or object) is stored when the object has no entry yet, and is later read as "all fields". Merged into an existing entry that is not "all", an empty string or object leaves the entry as it is, while `null`, `false` or `0` raise. A non-zero number or `true` raises. A raise inside the handler is answered with an error reply and a host shutdown.
- Status.StatusHandler.HandleSubscriptionRequest and Status.GCodeOutputHelper.HandleSubscribeGCodeOutput: require a given `response_template` to be a JSON object. The source stores any value; the push then copies it with `dict(template)`, which raises unless the value is a mapping or a list of key-value pairs.
- Status.Broadcast: states which flush tasks are added, one per connection that had none pending, but not their order. The source is Python 2 code, and its table of clients is a dict keyed by connection objects, so it iterates in hash order and promises no order either.
- Status.StatusHandler.constructor and Status.GCodeOutputHelper.constructor: require their endpoint paths to be unregistered. The source would raise on a duplicate registration.

=== FILE: connection.dfy ===
/** The connection layer of the API server: the listening socket's client
    table, one client connection (receive framing, the outbound buffer and its
    flush loop, close), the request object, and the endpoint registry with the
    dispatch of one request.

    The socket and the event loop are inputs: a read or a write is an outcome
    passed in, a deferred callback is an entry appended to the reactor's task
    queue, and the printer records the shutdown requests it receives. */
module Connection {
  import opened Wrappers
  import opened JsonValues
  import opened Framing
  import opened Protocol

  /** The socket error numbers the code tells apart. */
  datatype Errno = EBADF | EPIPE | OtherErrno(code: int)

  /** Outcome of one non-blocking `recv`. */
  datatype RecvResult = Received(data: string) | RecvFailed(errno: Errno)

  /** Outcome of one non-blocking `send`: bytes accepted, or an error. */
  datatype SendResult = Sent(count: nat) | SendFailed(errno: Errno)

  /** The handlers registered on the endpoint table. */
  datatype Callback =
    | ListEndpoints | InfoRequest | EstopRequest
    | SubscribeGCodeOutput
    | ObjectsList | ObjectsStatus | ObjectsSubscription | ObjectsListSubscription
    | ModuleCallback(name: string)

  /** A deferred callback waiting in the event loop. */
  datatype Task =
    | ProcessRequestTask(conn: ClientConnection, request: WebRequest)
    | DoSendTask(conn: ClientConnection)

  /** The event loop's queue of deferred callbacks (`register_callback`). */
  class Reactor {
    var tasks: seq<Task>

    constructor()
      ensures tasks == []
    {
      tasks := [];
    }

    method RegisterCallback(t: Task)
      modifies this
      ensures tasks == old(tasks) + [t]
    {
      tasks := tasks + [t];
    }
  }

  /** The host, as far as this layer uses it: the shutdown requests it gets. */
  class Printer {
    var shutdownReasons: seq<string>

    constructor()
      ensures shutdownReasons == []
    {
      shutdownReasons := [];
    }

    method InvokeShutdown(msg: string)
      modifies this
      ensures shutdownReasons == old(shutdownReasons) + [msg]
    {
      shutdownReasons := shutdownReasons + [msg];
    }
  }

  /** The event-loop tasks that run the request objects `wrs`, in order,
      for connection `c`. */
  function RequestTasks(c: ClientConnection, wrs: seq<WebRequest>): seq<Task>
  {
    if wrs == [] then [] else RequestTasks(c, wrs[..|wrs| - 1]) + [ProcessRequestTask(c, wrs[|wrs| - 1])]
  }

  lemma RequestTasksAppend(c: ClientConnection, wrs: seq<WebRequest>, w: WebRequest)
    ensures RequestTasks(c, wrs + [w]) == RequestTasks(c, wrs) + [ProcessRequestTask(c, w)]
  {
    assert (wrs + [w])[..|wrs|] == wrs;
  }

  /** The request objects `wrs` hold the decoded requests `reqs`, one each and
      in order, all received on connection `c`. */
  predicate Carries(wrs: seq<WebRequest>, c: ClientConnection, reqs: seq<Request>)
  {
    && |wrs| == |reqs|
    && forall i :: 0 <= i < |wrs| ==>
         wrs[i].conn == c && wrs[i].id == reqs[i].id && wrs[i].path == reqs[i].path && wrs[i].args == reqs[i].args
  }

  lemma CarriesAppend(wrs: seq<WebRequest>, c: ClientConnection, reqs: seq<Request>, w: WebRequest, r: Request)
    requires Carries(wrs, c, reqs)
    requires w.conn == c && w.id == r.id && w.path == r.path && w.args == r.args
    ensures Carries(wrs + [w], c, reqs + [r])
  {
  }

  /** One request on its way through a handler. `response` is `JNull` while
      unset (Python's None). */
  class WebRequest {
    const conn: ClientConnection
    const id: Json
    const path: string
    const args: map<string, Json>
    var response: Json

    constructor(conn: ClientConnection, r: Request)
      ensures this.conn == conn && id == r.id && path == r.path && args == r.args
      ensures response == JNull
    {
      this.conn := conn;
      id, path, args := r.id, r.path, r.args;
      response := JNull;
    }

    /** An argument: its value when given, else the default when one is
        passed, else the "Invalid Argument" error. */
    function Get(item: string, default: Option<Json>): (r: Result<Json, WebRequestError>)
      ensures item in args ==> r == Success(args[item])
      ensures item !in args && default.Some? ==> r == Success(default.value)
      ensures item !in args && default.None? ==> r == Failure(WebRequestError(InvalidArgumentMessage(item)))
    {
      if item !in args then
        if default.None? then Failure(WebRequestError(InvalidArgumentMessage(item)))
        else Success(default.value)
      else Success(args[item])
    }

    /** Sets the response; a second send fails and leaves the first one. */
    method Send(data: Json) returns (err: Option<WebRequestError>)
      modifies this
      ensures old(response) != JNull ==>
                err == Some(WebRequestError(MultipleSendsMessage)) && response == old(response)
      ensures old(response) == JNull ==> err == None && response == data
    {
      if response != JNull {
        return Some(WebRequestError(MultipleSendsMessage));
      }
      response := data;
      return None;
    }

    /** Replaces whatever response was set by the error payload. */
    method SetError(e: WebRequestError)
      modifies this
      ensures response == e.ToDict()
    {
      response := e.ToDict();
    }

    /** Settles the response ("ok" when unset) and returns the reply body. */
    method Finish() returns (result: Json)
      modifies this
      ensures response == Finished(old(response))
      ensures result == FinishResult(id, response)
    {
      if response == JNull {
        response := JString("ok");
      }
      return FinishResult(id, response);
    }
  }

  /** The foreign handler run on a request: it sends the behaviour's values
      in order and stops at the first send that fails. */
  method CallHandler(wr: WebRequest, b: Behavior) returns (raised: Raised)
    modifies wr
    ensures (wr.response, raised) == RunHandler(old(wr.response), b.sends, b.raises)
  {
    var i := 0;
    while i < |b.sends|
      invariant 0 <= i <= |b.sends|
      invariant RunHandler(wr.response, b.sends[i..], b.raises) == RunHandler(old(wr.response), b.sends, b.raises)
    {
      assert b.sends[i..][1..] == b.sends[i + 1..];
      var err := wr.Send(b.sends[i]);
      if err.Some? {
        return RaisedCommandError(err.value.message);
      }
      i := i + 1;
    }
    return b.raises;
  }

  /** The `emergency_stop` endpoint: asks the host to shut down, sends
      nothing and returns normally, so the reply is the default "ok". */
  method HandleEstopRequest(printer: Printer, wr: WebRequest) returns (raised: Raised)
    modifies printer
    ensures printer.shutdownReasons == old(printer.shutdownReasons) + ["Shutdown due to webhooks request"]
    ensures raised == Returned
  {
    printer.InvokeShutdown("Shutdown due to webhooks request");
    return Returned;
  }

  /** The endpoint registry: request path to handler. */
  class WebHooks {
    var endpoints: map<string, Callback>

    constructor()
      ensures endpoints == map["list_endpoints" := ListEndpoints, "info" := InfoRequest,
                               "emergency_stop" := EstopRequest]
    {
      endpoints := map["list_endpoints" := ListEndpoints];
      new;
      var err := RegisterEndpoint("info", InfoRequest);
      err := RegisterEndpoint("emergency_stop", EstopRequest);
    }

    /** Adds a path; a path already present is refused and the table is left as it was. */
    method RegisterEndpoint(path: string, cb: Callback) returns (err: Option<WebRequestError>)
      modifies this
      ensures path in old(endpoints) ==>
                err == Some(WebRequestError("Path already registered to an endpoint")) &&
                endpoints == old(endpoints)
      ensures path !in old(endpoints) ==> err == None && endpoints == old(endpoints)[path := cb]
      ensures GetCallback(path).Success?
    {
      if path in endpoints {
        return Some(WebRequestError("Path already registered to an endpoint"));
      }
      endpoints := endpoints[path := cb];
      return None;
    }

    /** The handler for a path, or the "no registered callback" error. */
    function GetCallback(path: string): (r: Result<Callback, WebRequestError>)
      reads this
      ensures r.Success? <==> path in endpoints
      ensures r.Success? ==> r.value == endpoints[path]
      ensures r.Failure? ==> r.error == WebRequestError(NoCallbackMessage(path))
    {
      if path in endpoints then Success(endpoints[path])
      else Failure(WebRequestError(NoCallbackMessage(path)))
    }
  }

  /** The listening socket's table of live connections (its `clients`; a
      connection's uid is its identity). */
  class ServerSocket {
    const reactor: Reactor
    const webhooks: WebHooks
    const printer: Printer
    const codec: Codec
    var clients: set<ClientConnection>

    /** Every connection in the table is open and belongs to this server. */
    ghost predicate Valid()
      reads this, clients
    {
      forall c :: c in clients ==> c.open && c.server == this
    }

    constructor(reactor: Reactor, webhooks: WebHooks, printer: Printer, codec: Codec)
      ensures this.reactor == reactor && this.webhooks == webhooks
      ensures this.printer == printer && this.codec == codec
      ensures clients == {} && Valid()
    {
      this.reactor, this.webhooks, this.printer, this.codec := reactor, webhooks, printer, codec;
      clients := {};
    }

    method PopClient(c: ClientConnection)
      modifies this`clients
      ensures clients == old(clients) - {c}
    {
      clients := clients - {c};
    }

    /** One readiness event on the listening socket: a pending connection, if
        the accept found one, becomes a new open client. */
    method HandleAccept(pending: bool) returns (c: Option<ClientConnection>)
      requires Valid()
      modifies this`clients
      ensures Valid()
      ensures !pending ==> c == None && clients == old(clients)
      ensures pending ==> c.Some? && fresh(c.value) && clients == old(clients) + {c.value}
      ensures pending ==> c.value.Valid() && c.value.server == this && !c.value.IsClosed()
      ensures pending ==> c.value.partialData == [] && c.value.sendBuffer == [] && !c.value.isSendingData
    {
      if !pending {
        return None;
      }
      var conn := new ClientConnection(this);
      clients := clients + {conn};
      return Some(conn);
    }

    /** Host disconnect: every live connection is closed. */
    method HandleDisconnect()
      requires Valid()
      modifies this`clients, clients`open
      ensures Valid() && clients == {}
      ensures forall c :: c in old(clients) ==> c.IsClosed()
    {
      var pending := clients;
      while pending != {}
        invariant pending == clients
        invariant Valid()
        invariant forall c :: c in old(clients) && c !in pending ==> c.IsClosed()
        decreases pending
      {
        var c :| c in pending;
        c.Close();
        pending := pending - {c};
      }
    }
  }

  const MaxRetries: nat := 10

  /** A send error the flush loop retries after a pause. */
  predicate Retryable(r: SendResult)
  {
    r.SendFailed? && r.errno != EBADF && r.errno != EPIPE
  }

  /** The number of retryable errors in a row just before attempt `i`. */
  function Stall(env: nat -> SendResult, i: nat): nat
  {
    if i == 0 then 0
    else if Retryable(env(i - 1)) then Stall(env, i - 1) + 1
    else 0
  }

  /** Attempt `i` ends the flush: nothing was accepted, the descriptor is bad
      or the pipe broken, or the retries are used up. */
  predicate GivesUp(env: nat -> SendResult, i: nat)
  {
    match env(i)
    case Sent(n) => n == 0
    case SendFailed(e) => e == EBADF || e == EPIPE || Stall(env, i) >= MaxRetries
  }

  /** `Stall` counts exactly the run of retryable errors that ends just
      before attempt `i`. */
  lemma {:induction false} StallIsRun(env: nat -> SendResult, i: nat)
    ensures Stall(env, i) <= i
    ensures forall k :: i - Stall(env, i) <= k < i ==> Retryable(env(k))
    ensures Stall(env, i) < i ==> !Retryable(env(i - Stall(env, i) - 1))
  {
    if i > 0 && Retryable(env(i - 1)) {
      StallIsRun(env, i - 1);
    }
  }

  /** An attempt ends the flush exactly when it accepted nothing and the loop
      does not retry it: it was not a retryable error, or the 10 retries were
      used up. */
  lemma GivesUpWhen(env: nat -> SendResult, i: nat)
    ensures GivesUp(env, i) <==> SentCount(env(i)) == 0 && !(Retryable(env(i)) && Stall(env, i) < MaxRetries)
  {
  }

  /** The bytes a `send` result reports as accepted; an error accepts none. */
  function SentCount(r: SendResult): nat
  {
    if r.Sent? then r.count else 0
  }

  /** The bytes `send` accepted over the first `n` attempts of a flush. */
  function Delivered(env: nat -> SendResult, n: nat): nat
  {
    if n == 0 then 0 else Delivered(env, n - 1) + SentCount(env(n - 1))
  }

  function Min(a: nat, b: nat): nat
  {
    if a < b then a else b
  }

  /** What a flush run under `env` leaves: `before` has lost exactly the bytes
      `send` accepted (all of it when more were reported); every attempt was
      made on a non-empty buffer; the run gave up exactly when its last
      attempt gave up, which is exactly when bytes are left; no earlier
      attempt gave up; and no attempt followed more than 10 retryable errors
      in a row. */
  ghost predicate FlushOutcome(env: nat -> SendResult, before: string, after: string, attempts: nat, gaveUp: bool)
  {
    && after == before[Min(Delivered(env, attempts), |before|)..]
    && (forall i :: 0 <= i < attempts ==> Delivered(env, i) < |before|)
    && (gaveUp <==> after != [])
    && (gaveUp <==> attempts > 0 && GivesUp(env, attempts - 1))
    && (forall i :: 0 <= i < attempts - 1 ==> !GivesUp(env, i))
    && (forall i :: 0 <= i < attempts ==> Stall(env, i) <= MaxRetries)
  }

  /** One attempt on the rest of `before` that `send` has not yet accepted. */
  lemma DeliveredStep(env: nat -> SendResult, before: string, buffer: string, n: nat)
    requires buffer != [] && buffer == before[Min(Delivered(env, n), |before|)..]
    ensures Delivered(env, n) < |before|
    ensures buffer[Min(SentCount(env(n)), |buffer|)..] == before[Min(Delivered(env, n + 1), |before|)..]
  {
  }

  /** How the flush loop can stop: with the buffer empty and no attempt
      having given up, or at the first attempt that gave up. */
  lemma FlushEnds(env: nat -> SendResult, before: string, after: string, attempts: nat, gaveUp: bool)
    requires after == before[Min(Delivered(env, attempts), |before|)..]
    requires forall i :: 0 <= i < attempts ==> Delivered(env, i) < |before|
    requires !gaveUp ==> after == [] && KeepsGoing(env, attempts)
    requires gaveUp ==> after != [] && attempts > 0 && GivesUp(env, attempts - 1)
    requires gaveUp ==> Stall(env, attempts - 1) <= MaxRetries && KeepsGoing(env, attempts - 1)
    ensures FlushOutcome(env, before, after, attempts, gaveUp)
  {
    var n := if gaveUp then attempts - 1 else attempts;
    forall i | 0 <= i < attempts
      ensures Stall(env, i) <= MaxRetries
    {
      if i < n {
        KeepsGoingAt(env, n, i);
      }
    }
    forall i | 0 <= i < attempts - 1
      ensures !GivesUp(env, i)
    {
      KeepsGoingAt(env, n, i);
    }
    if !gaveUp && attempts > 0 {
      KeepsGoingAt(env, n, attempts - 1);
    }
  }

  /** Two runs under the same outcomes make the same number of attempts: a
      run cannot stop while another one under `env` goes on. */
  lemma FlushAttemptsAgree(env: nat -> SendResult, before: string,
                           after1: string, n1: nat, g1: bool, after2: string, n2: nat, g2: bool)
    requires FlushOutcome(env, before, after1, n1, g1)
    requires FlushOutcome(env, before, after2, n2, g2)
    ensures n1 >= n2
  {
    if n1 < n2 {
      assert false;
    }
  }

  /** The flush is determined by the `send` outcomes: its buffer, its number
      of attempts and whether it gave up. */
  lemma FlushOutcomeUnique(env: nat -> SendResult, before: string,
                           after1: string, n1: nat, g1: bool, after2: string, n2: nat, g2: bool)
    requires FlushOutcome(env, before, after1, n1, g1)
    requires FlushOutcome(env, before, after2, n2, g2)
    ensures n1 == n2 && g1 == g2 && after1 == after2
  {
    FlushAttemptsAgree(env, before, after1, n1, g1, after2, n2, g2);
    FlushAttemptsAgree(env, before, after2, n2, g2, after1, n1, g1);
  }

  lemma {:induction false} DeliveredOneEach(env: nat -> SendResult, n: nat)
    requires forall i :: env(i) == Sent(1)
    ensures Delivered(env, n) == n
  {
    if n > 0 {
      DeliveredOneEach(env, n - 1);
    }
  }

  /** A socket that accepts one byte per `send` empties the buffer in exactly
      one attempt per byte, without giving up. */
  lemma OneBytePerSend(env: nat -> SendResult, before: string, after: string, attempts: nat, gaveUp: bool)
    requires forall i :: env(i) == Sent(1)
    requires FlushOutcome(env, before, after, attempts, gaveUp)
    ensures attempts == |before| && after == [] && !gaveUp
  {
    DeliveredOneEach(env, attempts);
    if attempts > 0 {
      DeliveredOneEach(env, attempts - 1);
      assert Delivered(env, attempts - 1) < |before|;
    }
  }

  /** A broken pipe on the first `send` ends the flush at once, with the
      whole buffer left. */
  lemma BrokenPipeGivesUp(env: nat -> SendResult, before: string, after: string, attempts: nat, gaveUp: bool)
    requires before != [] && env(0) == SendFailed(EPIPE)
    requires FlushOutcome(env, before, after, attempts, gaveUp)
    ensures attempts == 1 && gaveUp && after == before
  {
    assert GivesUp(env, 0);
    if attempts == 0 {
      assert after == before[0..];
    }
  }

  /** None of the first `n` attempts ended the flush. */
  ghost predicate KeepsGoing(env: nat -> SendResult, n: nat)
  {
    forall i :: 0 <= i < n ==> Stall(env, i) <= MaxRetries && !GivesUp(env, i)
  }

  lemma KeepsGoingAt(env: nat -> SendResult, n: nat, i: nat)
    requires KeepsGoing(env, n) && i < n
    ensures Stall(env, i) <= MaxRetries && !GivesUp(env, i)
  {
  }

  lemma KeepsGoingExtend(env: nat -> SendResult, n: nat)
    requires KeepsGoing(env, n)
    ensures Stall(env, n) <= MaxRetries && !GivesUp(env, n) ==> KeepsGoing(env, n + 1)
  {
  }

  /** One accepted client socket. */
  class ClientConnection {
    const server: ServerSocket
    const reactor: Reactor
    const webhooks: WebHooks
    const printer: Printer
    const codec: Codec
    var open: bool
    var partialData: string
    var sendBuffer: string
    var isSendingData: bool

    /** The kept tail never holds a complete frame. */
    ghost predicate Valid()
      reads this
    {
      Terminator !in partialData
    }

    constructor(server: ServerSocket)
      ensures this.server == server && reactor == server.reactor && webhooks == server.webhooks
      ensures printer == server.printer && codec == server.codec
      ensures open && partialData == [] && sendBuffer == [] && !isSendingData
      ensures Valid()
    {
      this.server := server;
      reactor, webhooks, printer, codec := server.reactor, server.webhooks, server.printer, server.codec;
      open := true;
      partialData, sendBuffer := [], [];
      isSendingData := false;
    }

    predicate IsClosed()
      reads this
    {
      !open
    }

    /** Unregisters and closes the socket and drops the connection from the
        server; a second call does nothing. */
    method Close()
      requires server.Valid()
      modifies this`open, server`clients
      ensures IsClosed() && this !in server.clients && server.Valid()
      ensures old(open) ==> server.clients == old(server.clients) - {this}
      ensures !old(open) ==> server.clients == old(server.clients)
    {
      if open {
        open := false;
        server.PopClient(this);
      }
    }

    /** One readiness event on the socket. An empty read, or EBADF, closes the
        connection; any other error changes nothing. Data is split into
        frames; each frame that decodes into a request is scheduled on the
        event loop, in order, and the unfinished tail is kept. */
    method ProcessReceived(r: RecvResult) returns (ghost created: seq<WebRequest>)
      requires Valid() && server.Valid()
      modifies this`open, this`partialData, server`clients, reactor
      ensures Valid() && server.Valid()
      ensures r.RecvFailed? && r.errno != EBADF ==>
                open == old(open) && partialData == old(partialData) &&
                server.clients == old(server.clients) && reactor.tasks == old(reactor.tasks)
      ensures r == RecvFailed(EBADF) || r == Received([]) ==>
                IsClosed() && this !in server.clients &&
                (old(open) ==> server.clients == old(server.clients) - {this}) &&
                (!old(open) ==> server.clients == old(server.clients)) &&
                partialData == old(partialData) && reactor.tasks == old(reactor.tasks)
      ensures r.Received? && r.data != [] ==>
                var framed := Receive(old(partialData), r.data);
                var reqs := DecodeRequests(codec, framed.frames);
                && partialData == framed.partial
                && open == old(open) && server.clients == old(server.clients)
                && reactor.tasks == old(reactor.tasks) + RequestTasks(this, created)
                && fresh(created)
                && Carries(created, this, reqs)
                && (forall k :: 0 <= k < |created| ==> created[k].response == JNull)
    {
      created := [];
      var data: string;
      match r {
        case RecvFailed(e) =>
          if e == EBADF {
            data := [];
          } else {
            return;
          }
        case Received(d) =>
          data := d;
      }
      if data == [] {
        Close();
        return;
      }
      var requests := Split(data);
      requests := requests[0 := partialData + requests[0]];
      assert requests == [partialData + Split(data)[0]] + Split(data)[1..];
      assert Receive(partialData, data) == Framed(requests[..|requests| - 1], requests[|requests| - 1]);
      partialData := requests[|requests| - 1];
      created := ScheduleRequests(requests[..|requests| - 1]);
    }

    /** The loop over complete frames: each one that decodes into a request
        becomes a new request object, scheduled on the event loop in order;
        the others are dropped. */
    method ScheduleRequests(frames: seq<string>) returns (ghost created: seq<WebRequest>)
      modifies reactor
      ensures reactor.tasks == old(reactor.tasks) + RequestTasks(this, created)
      ensures fresh(created)
      ensures Carries(created, this, DecodeRequests(codec, frames))
      ensures forall k :: 0 <= k < |created| ==> created[k].response == JNull
    {
      created := [];
      ghost var objs: set<WebRequest> := {};
      ghost var done: seq<Request> := [];
      var i := 0;
      while i < |frames|
        invariant 0 <= i <= |frames|
        invariant done == DecodeRequests(codec, frames[..i])
        invariant reactor.tasks == old(reactor.tasks) + RequestTasks(this, created)
        invariant fresh(objs) && forall k :: 0 <= k < |created| ==> created[k] in objs
        invariant Carries(created, this, done)
        invariant forall w :: w in objs ==> w.response == JNull
      {
        var req := DecodeFrame(codec, frames[i]);
        DecodeRequestsPrefix(codec, frames, i);
        if req.Some? {
          var wr := new WebRequest(this, req.value);
          reactor.RegisterCallback(ProcessRequestTask(this, wr));
          assert wr.response == JNull;
          RequestTasksAppend(this, created, wr);
          CarriesAppend(created, this, done, wr, req.value);
          created := created + [wr];
          objs := objs + {wr};
          done := done + [req.value];
        }
        i := i + 1;
      }
      assert frames[..i] == frames;
      forall k | 0 <= k < |created|
        ensures created[k].response == JNull
      {
        assert created[k] in objs;
      }
    }

    /** Handles one dequeued request: looks up the handler, runs it, turns a
        CommandError into an error payload and any other exception into an
        error payload plus a host shutdown, and sends exactly one reply. */
    method ProcessRequest(wr: WebRequest, b: Behavior)
      modifies wr, this`sendBuffer, this`isSendingData, reactor, printer
      ensures var d := Dispatch(wr.path in webhooks.endpoints, wr.path, old(wr.response), b);
              && wr.response == Finished(d.response)
              && printer.shutdownReasons ==
                   old(printer.shutdownReasons) + (if d.shutdown.Some? then [d.shutdown.value] else [])
      ensures sendBuffer ==
                old(sendBuffer) + codec.Frame(ResponseMessage(FinishResult(wr.id, wr.response)))
      ensures isSendingData
      ensures reactor.tasks == old(reactor.tasks) + (if old(isSendingData) then [] else [DoSendTask(this)])
    {
      var cb := webhooks.GetCallback(wr.path);
      if cb.Failure? {
        wr.SetError(cb.error);
      } else {
        var raised := CallHandler(wr, b);
        match raised {
          case Returned =>
          case RaisedCommandError(m) =>
            wr.SetError(WebRequestError(m));
          case RaisedOther(m) =>
            wr.SetError(WebRequestError(m));
            printer.InvokeShutdown(InternalErrorMessage(wr.path));
        }
      }
      var result := wr.Finish();
      Send(ResponseMessage(result));
    }

    /** Appends one encoded, terminated message to the outbound buffer and
        schedules a flush unless one is already pending. */
    method Send(data: Json)
      modifies this`sendBuffer, this`isSendingData, reactor
      ensures sendBuffer == old(sendBuffer) + codec.Frame(data)
      ensures isSendingData
      ensures reactor.tasks == old(reactor.tasks) + (if old(isSendingData) then [] else [DoSendTask(this)])
    {
      sendBuffer := sendBuffer + codec.Frame(data);
      if !isSendingData {
        isSendingData := true;
        reactor.RegisterCallback(DoSendTask(this));
      }
    }

    /** The flush loop's `send` calls. `env(i)` is the outcome of the i-th
        call of this run; the result is the number of calls made and whether
        the last one ended the flush. The buffer loses exactly what `send`
        accepted; the retry counter is reset by every result that is not an
        exception. */
    method Flush(env: nat -> SendResult) returns (attempts: nat, gaveUp: bool)
      modifies this`sendBuffer
      ensures FlushOutcome(env, old(sendBuffer), sendBuffer, attempts, gaveUp)
    {
      var buffer := sendBuffer;
      var retries := MaxRetries;
      gaveUp := false;
      attempts := 0;
      while buffer != [] && !gaveUp
        invariant 0 <= retries <= MaxRetries
        invariant !gaveUp ==> retries + Stall(env, attempts) == MaxRetries && KeepsGoing(env, attempts)
        invariant gaveUp ==> buffer != [] && attempts > 0 && GivesUp(env, attempts - 1)
        invariant gaveUp ==> Stall(env, attempts - 1) <= MaxRetries && KeepsGoing(env, attempts - 1)
        invariant sendBuffer == old(sendBuffer)
        invariant buffer == sendBuffer[Min(Delivered(env, attempts), |sendBuffer|)..]
        invariant forall i :: 0 <= i < attempts ==> Delivered(env, i) < |sendBuffer|
        decreases |buffer|, if gaveUp then 0 else 1, retries
      {
        var outcome := env(attempts);
        KeepsGoingExtend(env, attempts);
        DeliveredStep(env, sendBuffer, buffer, attempts);
        attempts := attempts + 1;
        if Retryable(outcome) && retries > 0 {
          retries := retries - 1;
        } else {
          retries := MaxRetries;
          var sent := if outcome.Sent? then outcome.count else 0;
          if sent > 0 {
            var k := if sent < |buffer| then sent else |buffer|;
            buffer := buffer[k..];
          } else {
            gaveUp := true;
          }
        }
      }
      sendBuffer := buffer;
      FlushEnds(env, old(sendBuffer), sendBuffer, attempts, gaveUp);
    }

    /** The scheduled flush: runs the `send` calls, and a bad descriptor, a
        broken pipe, a zero-byte send or the eleventh retryable error in a
        row closes the connection. */
    method DoSend(env: nat -> SendResult) returns (attempts: nat)
      requires server.Valid()
      modifies this`sendBuffer, this`isSendingData, this`open, server`clients
      ensures server.Valid() && !isSendingData
      ensures FlushOutcome(env, old(sendBuffer), sendBuffer, attempts, sendBuffer != [])
      ensures sendBuffer == [] ==> open == old(open) && server.clients == old(server.clients)
      ensures sendBuffer != [] ==>
                IsClosed() && this !in server.clients &&
                (old(open) ==> server.clients == old(server.clients) - {this}) &&
                (!old(open) ==> server.clients == old(server.clients))
    {
      var gaveUp;
      attempts, gaveUp := Flush(env);
      assert gaveUp == (sendBuffer != []);
      if gaveUp {
        Close();
      }
      isSendingData := false;
    }
  }
}

=== FILE: framing.dfy ===
/** The frame codec of the API socket: every message, in either direction, is
    the JSON text of one value followed by the terminator 0x03; a read may end
    in the middle of a frame, and the unfinished tail is kept for the next read. */
module Framing {
  import opened Wrappers
  import opened JsonValues

  /** The byte that ends every frame. */
  const Terminator: char := '\U{3}'

  /** `s.split('\x03')`: the segments between terminators, in order; there is
      always one more segment than there are terminators. */
  function Split(s: string): (parts: seq<string>)
    ensures |parts| >= 1
    ensures forall i :: 0 <= i < |parts| ==> Terminator !in parts[i]
  {
    if s == [] then [[]]
    else
      var rest := Split(s[1..]);
      if s[0] == Terminator then [[]] + rest
      else [[s[0]] + rest[0]] + rest[1..]
  }

  /** The inverse of `Split`: the segments with one terminator between each two. */
  function Join(parts: seq<string>): string
    requires |parts| >= 1
  {
    if |parts| == 1 then parts[0] else parts[0] + [Terminator] + Join(parts[1..])
  }

  /** The wire text of a sequence of frames: each one followed by its terminator. */
  function Frames(frames: seq<string>): string
  {
    if frames == [] then [] else frames[0] + [Terminator] + Frames(frames[1..])
  }

  /** What one read leaves behind: the complete frames, in order, and the
      unfinished tail to be kept in `partial_data`. */
  datatype Framed = Framed(frames: seq<string>, partial: string)

  /** One successful read: split the new bytes on the terminator, put the kept
      tail in front of the first segment, and keep the last segment back. */
  function Receive(partial: string, data: string): (r: Framed)
    ensures partial + data == Frames(r.frames) + r.partial
    ensures Terminator !in partial ==>
              Terminator !in r.partial &&
              forall i :: 0 <= i < |r.frames| ==> Terminator !in r.frames[i]
  {
    var parts := Split(data);
    var all := [partial + parts[0]] + parts[1..];
    JoinSplit(data);
    JoinPrepend(partial, parts);
    JoinFrames(all[..|all| - 1], all[|all| - 1]);
    assert all == all[..|all| - 1] + [all[|all| - 1]];
    Framed(all[..|all| - 1], all[|all| - 1])
  }

  lemma {:induction false} JoinSplit(s: string)
    ensures Join(Split(s)) == s
  {
    if s != [] {
      var rest := Split(s[1..]);
      JoinSplit(s[1..]);
      if s[0] == Terminator {
        assert Split(s) == [[]] + rest;
        assert Split(s)[1..] == rest;
        assert s == [s[0]] + s[1..];
      } else if |rest| == 1 {
        assert Split(s) == [[s[0]] + rest[0]];
        assert s == [s[0]] + s[1..];
      } else {
        var parts := Split(s);
        assert parts == [[s[0]] + rest[0]] + rest[1..];
        assert parts[1..] == rest[1..];
        assert Join(rest) == rest[0] + [Terminator] + Join(rest[1..]);
        assert s == [s[0]] + s[1..];
      }
    }
  }

  /** Putting text in front of the first segment puts it in front of the join. */
  lemma {:induction false} JoinPrepend(p: string, parts: seq<string>)
    requires |parts| >= 1
    ensures Join([p + parts[0]] + parts[1..]) == p + Join(parts)
  {
    var all := [p + parts[0]] + parts[1..];
    if |parts| > 1 {
      assert all[0] == p + parts[0];
      assert all[1..] == parts[1..];
      assert Join(all) == all[0] + [Terminator] + Join(all[1..]);
      assert Join(parts) == parts[0] + [Terminator] + Join(parts[1..]);
    } else {
      assert all == [p + parts[0]];
    }
  }

  lemma {:induction false} JoinFrames(frames: seq<string>, last: string)
    ensures Join(frames + [last]) == Frames(frames) + last
  {
    if frames != [] {
      JoinFrames(frames[1..], last);
      assert (frames + [last])[1..] == frames[1..] + [last];
    }
  }

  lemma {:induction false} FramesAppend(f: seq<string>, g: seq<string>)
    ensures Frames(f + g) == Frames(f) + Frames(g)
  {
    if f == [] {
      assert f + g == g;
    } else {
      FramesAppend(f[1..], g);
      assert (f + g)[1..] == f[1..] + g;
      Associative(f[0] + [Terminator], Frames(f[1..]), Frames(g));
    }
  }

  lemma TerminatorInside(a: string, ra: string, b: string, rb: string)
    requires |a| < |b|
    requires a + [Terminator] + ra == b + [Terminator] + rb
    ensures b[|a|] == Terminator
  {
    var s := a + [Terminator] + ra;
    assert s[|a|] == Terminator;
    assert s[|a|] == b[|a|];
  }

  /** A terminator-free head cannot be longer than the first frame of the text. */
  lemma HeadNotLonger(a: string, ra: string, b: string, rb: string)
    requires Terminator !in b
    requires a + [Terminator] + ra == b + [Terminator] + rb
    ensures |a| >= |b|
  {
    if |a| < |b| {
      TerminatorInside(a, ra, b, rb);
      assert false;
    }
  }

  /** Two terminated, terminator-free heads of the same text are the same head. */
  lemma FirstFrame(a: string, ra: string, b: string, rb: string)
    requires Terminator !in a && Terminator !in b
    requires a + [Terminator] + ra == b + [Terminator] + rb
    ensures a == b && ra == rb
  {
    var s := a + [Terminator] + ra;
    HeadNotLonger(a, ra, b, rb);
    HeadNotLonger(b, rb, a, ra);
    assert a == s[..|a|];
    assert b == s[..|b|];
    assert ra == s[|a| + 1..];
    assert rb == s[|b| + 1..];
  }

  /** A terminator-free tail holds no complete frame. */
  lemma NoFrameInTail(g: seq<string>, q: string, p: string)
    requires g != [] && Terminator !in g[0]
    requires p == Frames(g) + q
    ensures Terminator in p
  {
    assert p == g[0] + ([Terminator] + Frames(g[1..]) + q);
    assert p[|g[0]|] == Terminator;
  }

  /** A stream of terminated frames followed by an unterminated tail can be cut
      up in only one way: the frames and the tail are determined by the text. */
  lemma {:induction false} FramesUnique(f: seq<string>, p: string, g: seq<string>, q: string)
    requires forall i :: 0 <= i < |f| ==> Terminator !in f[i]
    requires forall i :: 0 <= i < |g| ==> Terminator !in g[i]
    requires Terminator !in p && Terminator !in q
    requires Frames(f) + p == Frames(g) + q
    ensures f == g && p == q
  {
    if f == [] && g == [] {
      assert Frames(f) == [] && Frames(g) == [];
      assert Frames(f) + p == p && Frames(g) + q == q;
    } else if f == [] {
      NoFrameInTail(g, q, p);
    } else if g == [] {
      NoFrameInTail(f, p, q);
    } else {
      assert Frames(f) + p == f[0] + [Terminator] + (Frames(f[1..]) + p);
      assert Frames(g) + q == g[0] + [Terminator] + (Frames(g[1..]) + q);
      FirstFrame(f[0], Frames(f[1..]) + p, g[0], Frames(g[1..]) + q);
      FramesUnique(f[1..], p, g[1..], q);
      assert f == [f[0]] + f[1..];
      assert g == [g[0]] + g[1..];
    }
  }

  /** Where a read boundary falls does not matter: two reads deliver the same
      frames, in the same order, and leave the same tail as one read of the
      concatenated bytes. */
  lemma ReceiveChunked(p: string, a: string, b: string)
    requires Terminator !in p
    ensures var first := Receive(p, a);
            var second := Receive(first.partial, b);
            Receive(p, a + b) == Framed(first.frames + second.frames, second.partial)
  {
    var first := Receive(p, a);
    var second := Receive(first.partial, b);
    var whole := Receive(p, a + b);
    SameFramesAcrossReads(p, a, b, first.frames, first.partial, second.frames, second.partial,
                          whole.frames, whole.partial);
  }

  lemma Associative(x: string, y: string, z: string)
    ensures x + (y + z) == (x + y) + z
  {
  }

  /** The text argument behind `ReceiveChunked`, stated on any cut of the
      three texts into terminator-free frames and tails. */
  lemma SameFramesAcrossReads(p: string, a: string, b: string,
                              f1: seq<string>, t1: string, f2: seq<string>, t2: string,
                              f: seq<string>, t: string)
    requires forall i :: 0 <= i < |f1| ==> Terminator !in f1[i]
    requires forall i :: 0 <= i < |f2| ==> Terminator !in f2[i]
    requires forall i :: 0 <= i < |f| ==> Terminator !in f[i]
    requires Terminator !in t2 && Terminator !in t
    requires p + a == Frames(f1) + t1
    requires t1 + b == Frames(f2) + t2
    requires p + (a + b) == Frames(f) + t
    ensures f == f1 + f2 && t == t2
  {
    FramesAppend(f1, f2);
    Associative(p, a, b);
    Associative(Frames(f1), t1, b);
    Associative(Frames(f1), Frames(f2), t2);
    assert p + (a + b) == Frames(f1 + f2) + t2;
    var both := f1 + f2;
    forall i | 0 <= i < |both| ensures Terminator !in both[i] {
      if i >= |f1| {
        assert both[i] == f2[i - |f1|];
      }
    }
    FramesUnique(f, t, both, t2);
  }

  /** The JSON library, taken as given: the encoder never emits a raw
      terminator (JSON escapes control characters), and decoding an encoding
      gives the value back. */
  datatype Codec = Codec(encode: Json -> string, decode: string -> Option<Json>) {
    /** What goes on the wire for one message: its encoding and the terminator. */
    function Frame(v: Json): string
    {
      encode(v) + [Terminator]
    }

    ghost predicate WellFormed() {
      && (forall v :: Terminator !in encode(v))
      && (forall v :: decode(encode(v)) == Some(v))
    }
  }

  function Encodings(codec: Codec, msgs: seq<Json>): seq<string>
  {
    seq(|msgs|, i requires 0 <= i < |msgs| => codec.encode(msgs[i]))
  }

  /** Round trip over the wire: messages sent one after another, each encoded
      and terminated, are read back by the peer as exactly those messages, in
      order, with nothing left over. */
  lemma WireRoundTrip(codec: Codec, msgs: seq<Json>)
    requires codec.WellFormed()
    ensures var r := Receive([], Frames(Encodings(codec, msgs)));
            r.partial == [] &&
            |r.frames| == |msgs| &&
            forall i :: 0 <= i < |msgs| ==> codec.decode(r.frames[i]) == Some(msgs[i])
  {
    var texts := Encodings(codec, msgs);
    var r := Receive([], Frames(texts));
    assert [] + Frames(texts) == Frames(texts) + [];
    FramesUnique(r.frames, r.partial, texts, []);
  }
}

=== FILE: json.dfy ===
/** Decoded JSON values, as `json.loads` produces them and `json.dumps`
    consumes them. Numbers are kept as integers; JSON `null` is Python's `None`. */
module JsonValues {

  datatype Json =
    | JNull
    | JBool(b: bool)
    | JNumber(n: int)
    | JString(s: string)
    | JArray(items: seq<Json>)
    | JObject(fields: map<string, Json>)
}

=== FILE: protocol.dfy ===
/** Request and response values of the API protocol, and the dispatch policy
    as a function: which response a request ends with, and when the host is
    shut down. */
module Protocol {
  import opened Wrappers
  import opened JsonValues
  import opened Framing

  /** The error every recoverable request failure is reported as (a subclass
      of the host's `CommandError`). */
  datatype WebRequestError = WebRequestError(message: string) {
    /** The payload put in the request's response slot. */
    function ToDict(): (d: Json)
      ensures IsErrorDict(d)
      ensures d.fields["message"] == JString(message)
    {
      JObject(map["error" := JString("WebRequestError"), "message" := JString(message)])
    }
  }

  /** An error payload: exactly the keys `error` (always "WebRequestError")
      and `message`. */
  predicate IsErrorDict(d: Json)
  {
    && d.JObject?
    && d.fields.Keys == {"error", "message"}
    && d.fields["error"] == JString("WebRequestError")
    && d.fields["message"].JString?
  }

  const MultipleSendsMessage: string := "Multiple calls to send not allowed"

  function InvalidArgumentMessage(item: string): string
  {
    "Invalid Argument [" + item + "]"
  }

  function NoCallbackMessage(path: string): string
  {
    "webhooks: No registered callback for path '" + path + "'"
  }

  function InternalErrorMessage(path: string): string
  {
    "Internal Error on WebRequest: " + path
  }

  /** The fields a request frame must carry: `id`, `path`, `args`. */
  datatype Request = Request(id: Json, path: string, args: map<string, Json>)

  /** Builds the request from a decoded frame; a frame without `id`, `path`
      or `args` yields nothing (the source's KeyError, which drops the frame). */
  function ParseRequest(j: Json): Option<Request>
  {
    if j.JObject? && "id" in j.fields && "path" in j.fields && "args" in j.fields
       && j.fields["path"].JString? && j.fields["args"].JObject?
    then Some(Request(j.fields["id"], j.fields["path"].s, j.fields["args"].fields))
    else None
  }

  /** The frame a client sends for a request. */
  function RequestJson(r: Request): Json
  {
    JObject(map["id" := r.id, "path" := JString(r.path), "args" := JObject(r.args)])
  }

  lemma ParseRequestRoundTrip(r: Request)
    ensures ParseRequest(RequestJson(r)) == Some(r)
  {
    var f := RequestJson(r).fields;
    assert "id" in f && "path" in f && "args" in f;
  }

  /** A frame as the receive path handles it: JSON-decoded, then turned into a
      request; a failure at either step drops the frame. */
  function DecodeFrame(codec: Codec, frame: string): Option<Request>
  {
    match codec.decode(frame)
    case None => None
    case Some(j) => ParseRequest(j)
  }

  /** The requests scheduled for a run of frames, in frame order. */
  function DecodeRequests(codec: Codec, frames: seq<string>): (rs: seq<Request>)
    ensures |rs| <= |frames|
  {
    if frames == [] then []
    else
      var last := DecodeFrame(codec, frames[|frames| - 1]);
      DecodeRequests(codec, frames[..|frames| - 1]) + (if last.Some? then [last.value] else [])
  }

  lemma {:induction false} DecodeRequestsAppend(codec: Codec, f: seq<string>, g: seq<string>)
    ensures DecodeRequests(codec, f + g) == DecodeRequests(codec, f) + DecodeRequests(codec, g)
    decreases |g|
  {
    if g == [] {
      assert f + g == f;
    } else {
      var h := g[..|g| - 1];
      assert (f + g)[..|f + g| - 1] == f + h;
      assert (f + g)[|f + g| - 1] == g[|g| - 1];
      DecodeRequestsAppend(codec, f, h);
    }
  }

  /** Handling one more frame adds its request, if it has one, at the end. */
  lemma DecodeRequestsPrefix(codec: Codec, frames: seq<string>, i: nat)
    requires i < |frames|
    ensures DecodeRequests(codec, frames[..i + 1]) ==
            DecodeRequests(codec, frames[..i]) +
            (if DecodeFrame(codec, frames[i]).Some? then [DecodeFrame(codec, frames[i]).value] else [])
  {
    assert frames[..i + 1][..i] == frames[..i];
  }

  /** A malformed frame is dropped and nothing else: the frames around it are
      handled as if it had never been sent. */
  lemma MalformedFrameDropped(codec: Codec, before: seq<string>, bad: string, after: seq<string>)
    requires DecodeFrame(codec, bad).None?
    ensures DecodeRequests(codec, before + [bad] + after)
            == DecodeRequests(codec, before) + DecodeRequests(codec, after)
  {
    assert DecodeRequests(codec, [bad]) == [] by {
      assert [bad][..0] == [];
    }
    DecodeRequestsAppend(codec, before, [bad]);
    assert DecodeRequests(codec, before + [bad]) == DecodeRequests(codec, before);
    DecodeRequestsAppend(codec, before + [bad], after);
  }

  function RequestJsons(rs: seq<Request>): seq<Json>
  {
    seq(|rs|, i requires 0 <= i < |rs| => RequestJson(rs[i]))
  }

  /** Every request a client writes, each as its own encoded frame, is
      decoded back by the server, once and in order. */
  lemma {:induction false} RequestsRoundTrip(codec: Codec, rs: seq<Request>)
    requires codec.WellFormed()
    ensures DecodeRequests(codec, Encodings(codec, RequestJsons(rs))) == rs
    decreases |rs|
  {
    if rs != [] {
      var n := |rs|;
      var texts := Encodings(codec, RequestJsons(rs));
      assert texts[..n - 1] == Encodings(codec, RequestJsons(rs[..n - 1]));
      RequestsRoundTrip(codec, rs[..n - 1]);
      ParseRequestRoundTrip(rs[n - 1]);
      assert DecodeFrame(codec, texts[n - 1]) == Some(rs[n - 1]);
      assert DecodeRequests(codec, texts) == DecodeRequests(codec, texts[..n - 1]) + [rs[n - 1]];
      ButLast(rs);
    }
  }

  /** The same over the socket: however the client's bytes are cut into two
      reads, the requests decoded from the first read followed by those from
      the second are exactly the requests written, and nothing is left over. */
  lemma RequestsOverTwoReads(codec: Codec, rs: seq<Request>, a: string, b: string)
    requires codec.WellFormed()
    requires a + b == Frames(Encodings(codec, RequestJsons(rs)))
    ensures var first := Receive([], a);
            var second := Receive(first.partial, b);
            second.partial == [] &&
            DecodeRequests(codec, first.frames) + DecodeRequests(codec, second.frames) == rs
  {
    var texts := Encodings(codec, RequestJsons(rs));
    var first := Receive([], a);
    var second := Receive(first.partial, b);
    ReceiveChunked([], a, b);
    var whole := Receive([], a + b);
    assert [] + (a + b) == Frames(texts) + [];
    FramesUnique(whole.frames, whole.partial, texts, []);
    RequestsRoundTrip(codec, rs);
    DecodeRequestsAppend(codec, first.frames, second.frames);
  }

  lemma ButLast<T>(s: seq<T>)
    requires s != []
    ensures s == s[..|s| - 1] + [s[|s| - 1]]
  {
  }

  /** How a handler ended: returned, raised a CommandError, or raised anything else. */
  datatype Raised = Returned | RaisedCommandError(message: string) | RaisedOther(message: string)

  /** What a registered handler does with its request: the values it passes to
      `send`, in order, and how it ends. The handler itself is code this model
      does not see. */
  datatype Behavior = Behavior(sends: seq<Json>, raises: Raised)

  /** Running a handler on a request whose response is `response` (`JNull`
      is Python's None, "unset"): a send onto an unset response stores its
      value; a send onto a set one raises the "multiple calls" error, which
      ends the handler. */
  function RunHandler(response: Json, sends: seq<Json>, raises: Raised): (Json, Raised)
    decreases |sends|
  {
    if sends == [] then (response, raises)
    else if response != JNull then (response, RaisedCommandError(MultipleSendsMessage))
    else RunHandler(sends[0], sends[1..], raises)
  }

  /** The response is already set when the handler's send number `i` runs. */
  ghost predicate SetBefore(initial: Json, sends: seq<Json>, i: int)
    requires 0 <= i <= |sends|
  {
    initial != JNull || exists j :: 0 <= j < i && sends[j] != JNull
  }

  /** Some send of the handler finds the response already set. */
  ghost predicate Resends(initial: Json, sends: seq<Json>)
  {
    exists i :: 0 <= i < |sends| && SetBefore(initial, sends, i)
  }

  /** Single assignment: the first value that sets the response stays, a later
      send raises the "multiple calls" error instead of its own outcome, and
      the response stays unset only when nothing ever set it. */
  lemma {:induction false} RunHandlerSingleAssignment(initial: Json, sends: seq<Json>, raises: Raised)
    ensures var (resp, raised) := RunHandler(initial, sends, raises);
      && (Resends(initial, sends) ==> raised == RaisedCommandError(MultipleSendsMessage))
      && (!Resends(initial, sends) ==> raised == raises)
      && (initial != JNull ==> resp == initial)
      && (resp == JNull <==> initial == JNull && forall i :: 0 <= i < |sends| ==> sends[i] == JNull)
      && (initial == JNull && resp != JNull ==>
            exists i :: 0 <= i < |sends| && sends[i] == resp && forall j :: 0 <= j < i ==> sends[j] == JNull)
    decreases |sends|
  {
    var (resp, raised) := RunHandler(initial, sends, raises);
    if sends == [] {
    } else if initial != JNull {
      assert SetBefore(initial, sends, 0);
    } else {
      var rest := sends[1..];
      RunHandlerSingleAssignment(sends[0], rest, raises);
      forall i | 0 <= i < |rest|
        ensures SetBefore(sends[0], rest, i) <==> SetBefore(initial, sends, i + 1)
      {
        if SetBefore(initial, sends, i + 1) && sends[0] == JNull {
          var j :| 0 <= j < i + 1 && sends[j] != JNull;
          assert rest[j - 1] != JNull;
        }
        if SetBefore(sends[0], rest, i) && sends[0] == JNull {
          var j :| 0 <= j < i && rest[j] != JNull;
          assert sends[j + 1] != JNull;
        }
      }
      assert !SetBefore(initial, sends, 0);
      assert Resends(initial, sends) <==> Resends(sends[0], rest) by {
        if Resends(initial, sends) {
          var i :| 0 <= i < |sends| && SetBefore(initial, sends, i);
          assert i > 0;
          assert SetBefore(sends[0], rest, i - 1);
        }
        if Resends(sends[0], rest) {
          var i :| 0 <= i < |rest| && SetBefore(sends[0], rest, i);
          assert SetBefore(initial, sends, i + 1);
        }
      }
      if resp != JNull {
        if sends[0] != JNull {
          assert sends[0] == resp;
        } else {
          var i :| 0 <= i < |rest| && rest[i] == resp && forall j :: 0 <= j < i ==> rest[j] == JNull;
          assert sends[i + 1] == resp;
          assert forall j :: 0 <= j < i + 1 ==> sends[j] == JNull by {
            forall j | 0 <= j < i + 1 ensures sends[j] == JNull {
              if j > 0 { assert sends[j] == rest[j - 1]; }
            }
          }
        }
      } else {
        assert sends[0] == JNull;
        forall i | 0 <= i < |sends| ensures sends[i] == JNull {
          if i > 0 { assert sends[i] == rest[i - 1]; }
        }
      }
    }
  }

  /** Result of dispatching one request: the response before `finish`, and
      the shutdown reason when the host is shut down. */
  datatype Dispatched = Dispatched(response: Json, shutdown: Option<string>)

  /** `_process_request` as a function: an unknown path and a CommandError are
      reported to the client only; any other exception is reported to the
      client and shuts the host down. */
  function Dispatch(registered: bool, path: string, initial: Json, b: Behavior): Dispatched
  {
    if !registered then Dispatched(WebRequestError(NoCallbackMessage(path)).ToDict(), None)
    else
      var (resp, raised) := RunHandler(initial, b.sends, b.raises);
      match raised
      case Returned => Dispatched(resp, None)
      case RaisedCommandError(m) => Dispatched(WebRequestError(m).ToDict(), None)
      case RaisedOther(m) => Dispatched(WebRequestError(m).ToDict(), Some(InternalErrorMessage(path)))
  }

  /** `finish`: an unset response becomes the literal "ok". */
  function Finished(response: Json): (r: Json)
    ensures r != JNull
    ensures response != JNull ==> r == response
    ensures response == JNull ==> r == JString("ok")
  {
    if response == JNull then JString("ok") else response
  }

  /** The reply body `{"request_id": id, "response": r}`. */
  function FinishResult(id: Json, response: Json): Json
  {
    JObject(map["request_id" := id, "response" := response])
  }

  /** The frame sent back for a request: `{"method": "response", "params": result}`. */
  function ResponseMessage(result: Json): Json
  {
    JObject(map["method" := JString("response"), "params" := result])
  }

  /** The dispatch policy. An unregistered path and a CommandError give an
      error payload and no shutdown; any other exception gives an error
      payload and exactly one shutdown; a handler that returns normally and
      never set anything is answered "ok". */
  lemma DispatchPolicy(registered: bool, path: string, b: Behavior)
    ensures var d := Dispatch(registered, path, JNull, b);
      && (!registered ==> d.response == WebRequestError(NoCallbackMessage(path)).ToDict() && d.shutdown == None)
      && (d.shutdown.Some? <==> registered && b.raises.RaisedOther? && !Resends(JNull, b.sends))
      && (d.shutdown.Some? ==> d.shutdown.value == InternalErrorMessage(path) && IsErrorDict(d.response))
      && (registered && b.raises.RaisedCommandError? ==> IsErrorDict(d.response) && d.shutdown == None)
      && (registered && Resends(JNull, b.sends) ==>
            d.response == WebRequestError(MultipleSendsMessage).ToDict() && d.shutdown == None)
      && (d.response == JNull <==>
            registered && b.raises == Returned && forall i :: 0 <= i < |b.sends| ==> b.sends[i] == JNull)
      && Finished(d.response) != JNull
  {
    RunHandlerSingleAssignment(JNull, b.sends, b.raises);
  }
}

=== FILE: status.dfy ===
/** The push side of the API server: the g-code output subscription, the
    object status subscription table with its batch push, and the status
    query. Printer objects and their `get_status` results are inputs: a map
    from object name to its current status, with callable attributes
    flagged. The subscription timer is the flag `timerArmed` (armed to fire
    now, or parked at NEVER). */
module Status {
  import opened Wrappers
  import opened JsonValues
  import opened Framing
  import opened Protocol
  import opened Subscriptions
  import opened Connection

  /** A client's template with `params` replaced by `{key: payload}`. */
  function PushMessage(template: Json, key: string, payload: Json): Json
    requires template.JObject?
  {
    JObject(template.fields["params" := JObject(map[key := payload])])
  }

  /** A push message is the client's template with only `params` set: every
      other field of the template is kept as it is. */
  lemma PushKeepsTemplate(template: Json, key: string, payload: Json)
    requires template.JObject?
    ensures var m := PushMessage(template, key, payload);
            && m.JObject? && m.fields.Keys == template.fields.Keys + {"params"}
            && m.fields["params"] == JObject(map[key := payload])
            && forall k :: k in template.fields && k != "params" ==> m.fields[k] == template.fields[k]
  {
  }

  /** Every client on the table runs on the given event loop and has an
      object template. */
  predicate Subscribers(clients: map<ClientConnection, Json>, reactor: Reactor)
  {
    forall c :: c in clients ==> c.reactor == reactor && clients[c].JObject?
  }

  /** No task occurs twice. */
  predicate Distinct(tasks: seq<Task>)
  {
    forall i, j :: 0 <= i < j < |tasks| ==> tasks[i] != tasks[j]
  }

  lemma DistinctAppend(tasks: seq<Task>, t: Task)
    requires Distinct(tasks) && t !in tasks
    ensures Distinct(tasks + [t])
  {
  }

  /** One push to a client table: closed connections are dropped from the
      table, every open one is sent its template carrying `{key: payload}`;
      one flush each is scheduled for exactly the open ones that had none
      pending. */
  method Broadcast(clients: map<ClientConnection, Json>, key: string, payload: Json, reactor: Reactor)
    returns (kept: map<ClientConnection, Json>)
    requires Subscribers(clients, reactor)
    modifies clients.Keys`sendBuffer, clients.Keys`isSendingData, reactor
    ensures kept == map c | c in clients && !c.IsClosed() :: clients[c]
    ensures Subscribers(kept, reactor)
    ensures forall c :: c in kept ==>
              c.sendBuffer == old(c.sendBuffer) + c.codec.Frame(PushMessage(clients[c], key, payload)) &&
              c.isSendingData
    ensures forall c :: c in clients && c !in kept ==>
              c.sendBuffer == old(c.sendBuffer) && c.isSendingData == old(c.isSendingData)
    ensures |reactor.tasks| >= |old(reactor.tasks)| && reactor.tasks[..|old(reactor.tasks)|] == old(reactor.tasks)
    ensures forall t :: t in reactor.tasks[|old(reactor.tasks)|..] ==>
              t.DoSendTask? && t.conn in kept && !old(t.conn.isSendingData)
    ensures forall c :: c in kept && !old(c.isSendingData) ==> DoSendTask(c) in reactor.tasks[|old(reactor.tasks)|..]
    ensures Distinct(reactor.tasks[|old(reactor.tasks)|..])
  {
    kept := map[];
    var pending := clients.Keys;
    ghost var scheduled: seq<Task> := [];
    while pending != {}
      invariant pending <= clients.Keys && kept.Keys <= clients.Keys
      invariant forall c :: c in clients ==>
                  && (c in kept <==> c !in pending && !c.IsClosed())
                  && (c in kept ==>
                        kept[c] == clients[c] && c.isSendingData &&
                        c.sendBuffer == old(c.sendBuffer) + c.codec.Frame(PushMessage(clients[c], key, payload)))
                  && (c !in kept ==> c.sendBuffer == old(c.sendBuffer) && c.isSendingData == old(c.isSendingData))
                  && (c in kept && !old(c.isSendingData) ==> DoSendTask(c) in scheduled)
      invariant reactor.tasks == old(reactor.tasks) + scheduled
      invariant forall t :: t in scheduled ==> t.DoSendTask? && t.conn in kept && !old(t.conn.isSendingData)
      invariant Distinct(scheduled)
      decreases pending
    {
      var c :| c in pending;
      if !c.IsClosed() {
        ghost var wasSending := c.isSendingData;
        c.Send(PushMessage(clients[c], key, payload));
        if !wasSending {
          DistinctAppend(scheduled, DoSendTask(c));
        }
        scheduled := scheduled + (if wasSending then [] else [DoSendTask(c)]);
        kept := kept[c := clients[c]];
      }
      pending := pending - {c};
    }
    assert reactor.tasks[|old(reactor.tasks)|..] == scheduled;
  }

  /** The `subscribe_gcode_output` endpoint and the g-code output push. */
  class GCodeOutputHelper {
    const reactor: Reactor
    var isRegistered: bool
    /** How often the output handler was handed to the g-code layer. */
    ghost var outputHandlers: nat
    var clients: map<ClientConnection, Json>

    ghost predicate Valid()
      reads this
    {
      && Subscribers(clients, reactor)
      && outputHandlers == (if isRegistered then 1 else 0)
    }

    constructor(webhooks: WebHooks, reactor: Reactor)
      requires "subscribe_gcode_output" !in webhooks.endpoints
      modifies webhooks
      ensures webhooks.endpoints == old(webhooks.endpoints)["subscribe_gcode_output" := SubscribeGCodeOutput]
      ensures this.reactor == reactor && !isRegistered && clients == map[] && Valid()
    {
      var err := webhooks.RegisterEndpoint("subscribe_gcode_output", SubscribeGCodeOutput);
      this.reactor := reactor;
      isRegistered := false;
      outputHandlers := 0;
      clients := map[];
    }

    /** One line of g-code output, pushed as `{"response": msg}`. */
    method GCodeCallback(msg: string)
      requires Valid()
      modifies this`clients, clients.Keys`sendBuffer, clients.Keys`isSendingData, reactor
      ensures Valid()
      ensures clients == map c | c in old(clients) && !c.IsClosed() :: old(clients)[c]
      ensures forall c :: c in clients ==>
                c.sendBuffer ==
                  old(c.sendBuffer) + c.codec.Frame(PushMessage(old(clients)[c], "response", JString(msg))) &&
                c.isSendingData
      ensures forall c :: c in old(clients) && c !in clients ==>
                c.sendBuffer == old(c.sendBuffer) && c.isSendingData == old(c.isSendingData)
      ensures |reactor.tasks| >= |old(reactor.tasks)| && reactor.tasks[..|old(reactor.tasks)|] == old(reactor.tasks)
      ensures forall t :: t in reactor.tasks[|old(reactor.tasks)|..] ==>
                t.DoSendTask? && t.conn in clients && !old(t.conn.isSendingData)
      ensures forall c :: c in clients && !old(c.isSendingData) ==> DoSendTask(c) in reactor.tasks[|old(reactor.tasks)|..]
      ensures Distinct(reactor.tasks[|old(reactor.tasks)|..])
    {
      clients := Broadcast(clients, "response", JString(msg), reactor);
    }

    /** Adds the requesting connection with its template (`{}` when none is
        given) and hands the output handler over on first use only. */
    method HandleSubscribeGCodeOutput(wr: WebRequest) returns (raised: Raised)
      requires Valid() && wr.conn.reactor == reactor
      requires "response_template" in wr.args ==> wr.args["response_template"].JObject?
      modifies this`clients, this`isRegistered, this`outputHandlers
      ensures Valid() && isRegistered && outputHandlers == 1 && raised == Returned
      ensures clients == old(clients)[wr.conn := wr.Get("response_template", Some(JObject(map[]))).value]
    {
      var template := wr.Get("response_template", Some(JObject(map[])));
      clients := clients[wr.conn := template.value];
      if !isRegistered {
        outputHandlers := outputHandlers + 1;
        isRegistered := true;
      }
      return Returned;
    }
  }

  /** The object catalog, the global subscription table and its clients. */
  class StatusHandler {
    const reactor: Reactor
    var ready: bool
    var timerStarted: bool
    /** The subscription timer: true when armed, false when parked at NEVER. */
    var timerArmed: bool
    /** How often the timer was armed by a subscription. */
    ghost var timerStarts: nat
    var availableObjects: map<string, set<string>>
    var subscriptions: map<string, set<string>>
    var clients: map<ClientConnection, Json>

    ghost predicate Valid()
      reads this
    {
      && Subscribers(clients, reactor)
      && timerStarts == (if timerStarted then 1 else 0)
    }

    constructor(webhooks: WebHooks, reactor: Reactor)
      requires "objects/list" !in webhooks.endpoints && "objects/status" !in webhooks.endpoints
      requires "objects/subscription" !in webhooks.endpoints
      requires "objects/list_subscription" !in webhooks.endpoints
      modifies webhooks
      ensures webhooks.endpoints == old(webhooks.endpoints)["objects/list" := ObjectsList]
                ["objects/status" := ObjectsStatus]["objects/subscription" := ObjectsSubscription]
                ["objects/list_subscription" := ObjectsListSubscription]
      ensures this.reactor == reactor && Valid()
      ensures !ready && !timerStarted && !timerArmed
      ensures availableObjects == map[] && subscriptions == map[] && clients == map[]
    {
      var err := webhooks.RegisterEndpoint("objects/list", ObjectsList);
      err := webhooks.RegisterEndpoint("objects/status", ObjectsStatus);
      err := webhooks.RegisterEndpoint("objects/subscription", ObjectsSubscription);
      err := webhooks.RegisterEndpoint("objects/list_subscription", ObjectsListSubscription);
      this.reactor := reactor;
      ready, timerStarted, timerArmed := false, false, false;
      timerStarts := 0;
      availableObjects, subscriptions, clients := map[], map[], map[];
    }

    /** Host ready: the catalog is rebuilt from the status keys of every
        object that reports a status. */
    method HandleReady(objects: map<string, map<string, StatusValue>>)
      modifies this`availableObjects, this`ready
      ensures ready
      ensures availableObjects.Keys == objects.Keys
      ensures forall o :: o in objects ==> availableObjects[o] == objects[o].Keys
    {
      availableObjects := map[];
      var pending := objects.Keys;
      while pending != {}
        invariant pending <= objects.Keys
        invariant availableObjects.Keys == objects.Keys - pending
        invariant forall o :: o in availableObjects ==> availableObjects[o] == objects[o].Keys
        decreases pending
      {
        var name :| name in pending;
        availableObjects := availableObjects[name := objects[name].Keys];
        pending := pending - {name};
      }
      ready := true;
    }

    /** Restart requested: not ready, and the timer parked. `timerStarted`
        stays as it is. */
    method HandleRestart()
      modifies this`ready, this`timerArmed
      ensures !ready && !timerArmed
    {
      ready := false;
      timerArmed := false;
    }

    /** The status reply for a request table: the not-ready marker, or for
        each requested object that exists and is in the catalog, its
        non-callable fields, all of them for an empty request, else only the
        requested ones. */
    function ProcessStatusRequest(requested: map<string, set<string>>,
                                  objects: map<string, map<string, StatusValue>>): (r: Json)
      reads this
      ensures !ready ==> r == JObject(map["status" := JString("Klippy Not Ready")])
      ensures ready ==> r.JObject?
      ensures ready ==> forall o :: o in r.fields <==> o in requested && o in objects && o in availableObjects
      ensures ready ==> forall o :: o in r.fields ==>
                r.fields[o].JObject? &&
                forall k :: k in r.fields[o].fields <==>
                  k in objects[o] && objects[o][k].Value? && (requested[o] == {} || k in requested[o])
      ensures ready ==> forall o, k :: o in r.fields && k in r.fields[o].fields ==>
                r.fields[o].fields[k] == objects[o][k].v
    {
      if !ready then JObject(map["status" := JString("Klippy Not Ready")])
      else JObject(map o | o in requested && o in objects && o in availableObjects ::
                     JObject(SelectFields(objects[o], requested[o])))
    }

    /** One timer tick: computes the status of the subscribed fields once
        and pushes it to every open subscriber as `{"status": ...}`. */
    method BatchSubscriptionHandler(objects: map<string, map<string, StatusValue>>)
      requires Valid()
      modifies this`clients, clients.Keys`sendBuffer, clients.Keys`isSendingData, reactor
      ensures Valid()
      ensures clients == map c | c in old(clients) && !c.IsClosed() :: old(clients)[c]
      ensures forall c :: c in clients ==>
                c.sendBuffer ==
                  old(c.sendBuffer) +
                  c.codec.Frame(PushMessage(old(clients)[c], "status", ProcessStatusRequest(subscriptions, objects))) &&
                c.isSendingData
      ensures forall c :: c in old(clients) && c !in clients ==>
                c.sendBuffer == old(c.sendBuffer) && c.isSendingData == old(c.isSendingData)
      ensures |reactor.tasks| >= |old(reactor.tasks)| && reactor.tasks[..|old(reactor.tasks)|] == old(reactor.tasks)
      ensures forall t :: t in reactor.tasks[|old(reactor.tasks)|..] ==>
                t.DoSendTask? && t.conn in clients && !old(t.conn.isSendingData)
      ensures forall c :: c in clients && !old(c.isSendingData) ==> DoSendTask(c) in reactor.tasks[|old(reactor.tasks)|..]
      ensures Distinct(reactor.tasks[|old(reactor.tasks)|..])
    {
      var status := ProcessStatusRequest(subscriptions, objects);
      clients := Broadcast(clients, "status", status, reactor);
    }

    /** One pass of the merge loop, for an object the catalog knows: unknown
        fields are removed, an entry left with none is skipped, and the rest
        is merged with the object's current entry. */
    method MergeEntry(name: string, requested: set<string>)
      requires name in availableObjects
      modifies this`subscriptions
      ensures subscriptions == MergeOne(old(subscriptions), availableObjects, name, requested)
    {
      var fields := requested;
      if fields != {} {
        var invalid := fields - availableObjects[name];
        if invalid != {} {
          fields := fields - invalid;
          if fields == {} {
            assert requested * availableObjects[name] == {} by {
              forall x | x in requested * availableObjects[name] ensures x in fields { }
            }
            return;
          }
        }
        assert fields == requested * availableObjects[name] by {
          forall x | x in requested ensures x in fields <==> x in availableObjects[name] {
            assert x in invalid <==> x !in availableObjects[name];
          }
        }
      }
      assert Accepted(availableObjects, name, requested) by {
        if requested != {} {
          var x :| x in fields;
        }
      }
      assert fields == ValidFields(availableObjects, name, requested);
      if name in subscriptions {
        var existing := subscriptions[name];
        if fields == {} || existing == {} {
          subscriptions := subscriptions[name := {}];
        } else {
          assert fields + existing == MergeFields(existing, fields);
          subscriptions := subscriptions[name := fields + existing];
        }
      } else {
        subscriptions := subscriptions[name := fields];
      }
    }

    /** Merges a subscription request into the table. An empty request does
        nothing; otherwise the first request ever arms the timer. */
    method AddSubscription(newSub: map<string, Json>)
      requires Valid() && FieldLists(newSub, availableObjects)
      modifies this`subscriptions, this`timerStarted, this`timerArmed, this`timerStarts
      ensures Valid()
      ensures newSub == map[] ==>
                subscriptions == old(subscriptions) && timerStarted == old(timerStarted) && timerArmed == old(timerArmed)
      ensures newSub != map[] ==>
                subscriptions == Merge(old(subscriptions), availableObjects, Requests(newSub, availableObjects))
      ensures newSub != map[] ==> timerStarted && timerArmed == (old(timerArmed) || !old(timerStarted))
    {
      if newSub == map[] {
        return;
      }
      ghost var req := Requests(newSub, availableObjects);
      var pending := newSub.Keys;
      while pending != {}
        invariant pending <= newSub.Keys
        invariant subscriptions == Merge(old(subscriptions), availableObjects, Restrict(req, newSub.Keys - pending))
        invariant timerStarted == old(timerStarted) && timerArmed == old(timerArmed) && timerStarts == old(timerStarts)
        decreases pending
      {
        var name :| name in pending;
        ghost var done := newSub.Keys - pending;
        assert newSub.Keys - (pending - {name}) == done + {name};
        RestrictStep(req, done, name);
        if name in availableObjects {
          MergeStep(old(subscriptions), availableObjects, Restrict(req, done), name, req[name]);
          MergeEntry(name, FieldSet(newSub[name]));
        }
        pending := pending - {name};
      }
      RestrictAll(req, newSub.Keys);
      assert newSub.Keys - pending == newSub.Keys;
      assert subscriptions == Merge(old(subscriptions), availableObjects, req);
      if !timerStarted {
        timerArmed := true;
        timerStarted := true;
        timerStarts := timerStarts + 1;
      }
    }

    /** The `objects/subscription` endpoint: refuses an empty argument table;
        otherwise merges the whole argument table, the template included, and
        records the requesting connection with its template. */
    method HandleSubscriptionRequest(wr: WebRequest) returns (raised: Raised)
      requires Valid() && wr.conn.reactor == reactor
      requires FieldLists(wr.args, availableObjects)
      requires "response_template" in wr.args ==> wr.args["response_template"].JObject?
      modifies this`subscriptions, this`timerStarted, this`timerArmed, this`timerStarts, this`clients
      ensures Valid()
      ensures wr.args == map[] ==>
                raised == RaisedCommandError("Invalid argument") &&
                subscriptions == old(subscriptions) && clients == old(clients) &&
                timerStarted == old(timerStarted) && timerArmed == old(timerArmed)
      ensures wr.args != map[] ==>
                && raised == Returned
                && subscriptions == Merge(old(subscriptions), availableObjects, Requests(wr.args, availableObjects))
                && clients == old(clients)[wr.conn := wr.Get("response_template", Some(JObject(map[]))).value]
                && timerStarted
                && timerArmed == (old(timerArmed) || !old(timerStarted))
    {
      if wr.args == map[] {
        return RaisedCommandError("Invalid argument");
      }
      AddSubscription(wr.args);
      ghost var armed := timerArmed;
      assert armed == (old(timerArmed) || !old(timerStarted));
      var template := wr.Get("response_template", Some(JObject(map[])));
      clients := clients[wr.conn := template.value];
      assert timerArmed == armed;
      return Returned;
    }
  }
}

=== FILE: subscriptions.dfy ===
/** The subscription table as values: validating a request against the
    catalog, merging it into the global per-object field sets, and selecting
    the status fields a request asks for. An empty field set means "all
    fields" throughout. */
module Subscriptions {
  import opened JsonValues

  /** A value in an object's status: plain data, or a callable attribute,
      which status replies leave out. */
  datatype StatusValue = Value(v: Json) | Callable

  /** A request entry `[field, ...]`, the shape the protocol documents. */
  predicate IsFieldList(v: Json)
  {
    v.JArray? && forall x :: x in v.items ==> x.JString?
  }

  function FieldSet(v: Json): set<string>
    requires IsFieldList(v)
  {
    set x | x in v.items :: x.s
  }

  /** Every entry of a request that names a catalog object is a field list. */
  predicate FieldLists(req: map<string, Json>, catalog: map<string, set<string>>)
  {
    forall o :: o in req && o in catalog ==> IsFieldList(req[o])
  }

  /** The field sets a request asks for, for the objects the catalog knows;
      other keys of the request (`response_template` among them) are skipped. */
  function Requests(req: map<string, Json>, catalog: map<string, set<string>>): map<string, set<string>>
    requires FieldLists(req, catalog)
  {
    map o | o in req && o in catalog :: FieldSet(req[o])
  }

  /** `a` asks for everything `b` asks for. */
  predicate Covers(a: set<string>, b: set<string>)
  {
    a == {} || (b != {} && b <= a)
  }

  /** An entry survives validation: its object is in the catalog, and it asks
      for all fields or for at least one field the object has. */
  predicate Accepted(catalog: map<string, set<string>>, o: string, fields: set<string>)
  {
    o in catalog && (fields == {} || fields * catalog[o] != {})
  }

  /** The requested fields without the ones the object does not have. */
  function ValidFields(catalog: map<string, set<string>>, o: string, fields: set<string>): (r: set<string>)
    requires o in catalog
    ensures r <= catalog[o]
    ensures fields == {} ==> r == {}
    ensures fields != {} ==> r <= fields && forall f :: f in fields && f in catalog[o] ==> f in r
  {
    if fields == {} then {} else fields * catalog[o]
  }

  /** Merging two field sets: "all" on either side wins, otherwise the union. */
  function MergeFields(existing: set<string>, fields: set<string>): (r: set<string>)
    ensures Covers(r, existing) && Covers(r, fields)
    ensures r <= existing + fields
    ensures r == {} ==> existing == {} || fields == {}
  {
    if existing == {} || fields == {} then {} else existing + fields
  }

  function AcceptedKeys(catalog: map<string, set<string>>, req: map<string, set<string>>): set<string>
  {
    set o | o in req && Accepted(catalog, o, req[o])
  }

  /** The subscription table after one request has been merged into it. */
  function Merge(subs: map<string, set<string>>, catalog: map<string, set<string>>,
                 req: map<string, set<string>>): (r: map<string, set<string>>)
    ensures r.Keys == subs.Keys + AcceptedKeys(catalog, req)
    ensures forall o :: o in subs && o !in AcceptedKeys(catalog, req) ==> r[o] == subs[o]
    ensures forall o :: o in subs ==> Covers(r[o], subs[o])
    ensures forall o :: o in AcceptedKeys(catalog, req) ==> Covers(r[o], ValidFields(catalog, o, req[o]))
    ensures forall o :: o in AcceptedKeys(catalog, req) && o !in subs ==> r[o] == ValidFields(catalog, o, req[o])
    ensures forall o :: (o in AcceptedKeys(catalog, req) && o in subs &&
                         subs[o] != {} && ValidFields(catalog, o, req[o]) != {}) ==>
              r[o] == subs[o] + ValidFields(catalog, o, req[o])
    ensures forall o :: o in AcceptedKeys(catalog, req) ==>
              r[o] <= (if o in subs then subs[o] else {}) + ValidFields(catalog, o, req[o])
  {
    map o | o in subs.Keys + AcceptedKeys(catalog, req) ::
      if o in AcceptedKeys(catalog, req) then
        var fields := ValidFields(catalog, o, req[o]);
        if o in subs then MergeFields(subs[o], fields) else fields
      else subs[o]
  }

  /** One pass of the merge loop: the entry for `o` alone. */
  function MergeOne(subs: map<string, set<string>>, catalog: map<string, set<string>>,
                    o: string, fields: set<string>): (r: map<string, set<string>>)
    ensures r.Keys == subs.Keys + (if Accepted(catalog, o, fields) then {o} else {})
    ensures forall k :: k in subs && k != o ==> r[k] == subs[k]
    ensures !Accepted(catalog, o, fields) ==> r == subs
    ensures Accepted(catalog, o, fields) ==>
              Covers(r[o], ValidFields(catalog, o, fields)) && (o in subs ==> Covers(r[o], subs[o]))
  {
    if Accepted(catalog, o, fields) then
      var valid := ValidFields(catalog, o, fields);
      subs[o := if o in subs then MergeFields(subs[o], valid) else valid]
    else subs
  }

  function Restrict(req: map<string, set<string>>, keys: set<string>): map<string, set<string>>
  {
    map o | o in req && o in keys :: req[o]
  }

  lemma RestrictStep(req: map<string, set<string>>, done: set<string>, o: string)
    ensures o in req ==> Restrict(req, done + {o}) == Restrict(req, done)[o := req[o]]
    ensures o !in req ==> Restrict(req, done + {o}) == Restrict(req, done)
  {
  }

  lemma RestrictAll(req: map<string, set<string>>, keys: set<string>)
    requires req.Keys <= keys
    ensures Restrict(req, keys) == req
  {
  }

  /** The merge loop may take the request's entries in any order: adding one
      more entry is one more pass. */
  lemma MergeStep(subs: map<string, set<string>>, catalog: map<string, set<string>>,
                  req: map<string, set<string>>, o: string, fields: set<string>)
    requires o !in req
    ensures Merge(subs, catalog, req[o := fields]) == MergeOne(Merge(subs, catalog, req), catalog, o, fields)
  {
    var left := Merge(subs, catalog, req[o := fields]);
    var right := MergeOne(Merge(subs, catalog, req), catalog, o, fields);
    AcceptedKeysStep(catalog, req, o, fields);
    assert left.Keys == right.Keys;
    forall k | k in left ensures left[k] == right[k] {
      MergeStepAt(subs, catalog, req, o, fields, k);
    }
  }

  lemma AcceptedKeysStep(catalog: map<string, set<string>>, req: map<string, set<string>>,
                         o: string, fields: set<string>)
    requires o !in req
    ensures AcceptedKeys(catalog, req[o := fields]) ==
            AcceptedKeys(catalog, req) + (if Accepted(catalog, o, fields) then {o} else {})
  {
  }

  lemma MergeStepAt(subs: map<string, set<string>>, catalog: map<string, set<string>>,
                    req: map<string, set<string>>, o: string, fields: set<string>, k: string)
    requires o !in req
    requires k in Merge(subs, catalog, req[o := fields])
    ensures k in MergeOne(Merge(subs, catalog, req), catalog, o, fields)
    ensures Merge(subs, catalog, req[o := fields])[k] == MergeOne(Merge(subs, catalog, req), catalog, o, fields)[k]
  {
    AcceptedKeysStep(catalog, req, o, fields);
    if k != o {
      assert k in AcceptedKeys(catalog, req[o := fields]) <==> k in AcceptedKeys(catalog, req);
    }
  }

  /** Re-submitting a request that was already merged changes nothing. */
  lemma MergeIdempotent(subs: map<string, set<string>>, catalog: map<string, set<string>>,
                        req: map<string, set<string>>)
    ensures Merge(Merge(subs, catalog, req), catalog, req) == Merge(subs, catalog, req)
  {
    var once := Merge(subs, catalog, req);
    var twice := Merge(once, catalog, req);
    assert twice.Keys == once.Keys;
    forall o | o in twice ensures twice[o] == once[o] {
      if o in AcceptedKeys(catalog, req) {
        var v := ValidFields(catalog, o, req[o]);
        assert once[o] == if o in subs then MergeFields(subs[o], v) else v;
        assert twice[o] == MergeFields(once[o], v);
      }
    }
  }

  lemma MergeFieldsSwap(x: set<string>, v1: set<string>, v2: set<string>)
    ensures MergeFields(MergeFields(x, v1), v2) == MergeFields(MergeFields(x, v2), v1)
    ensures MergeFields(v1, v2) == MergeFields(v2, v1)
  {
  }

  /** The entry for `o` after two merges does not depend on their order. */
  lemma MergeCommutesAt(subs: map<string, set<string>>, catalog: map<string, set<string>>,
                        r1: map<string, set<string>>, r2: map<string, set<string>>, o: string)
    requires o in Merge(Merge(subs, catalog, r1), catalog, r2)
    ensures o in Merge(Merge(subs, catalog, r2), catalog, r1)
    ensures Merge(Merge(subs, catalog, r1), catalog, r2)[o] == Merge(Merge(subs, catalog, r2), catalog, r1)[o]
  {
    var m1, m2 := Merge(subs, catalog, r1), Merge(subs, catalog, r2);
    var in1 := o in AcceptedKeys(catalog, r1);
    var in2 := o in AcceptedKeys(catalog, r2);
    if in1 && in2 {
      var v1 := ValidFields(catalog, o, r1[o]);
      var v2 := ValidFields(catalog, o, r2[o]);
      MergeFieldsSwap(if o in subs then subs[o] else {}, v1, v2);
      if o in subs {
        assert m1[o] == MergeFields(subs[o], v1);
        assert m2[o] == MergeFields(subs[o], v2);
      } else {
        assert m1[o] == v1 && m2[o] == v2;
      }
    }
  }

  /** Two requests merged in either order give the same table. */
  lemma MergeCommutes(subs: map<string, set<string>>, catalog: map<string, set<string>>,
                      r1: map<string, set<string>>, r2: map<string, set<string>>)
    ensures Merge(Merge(subs, catalog, r1), catalog, r2) == Merge(Merge(subs, catalog, r2), catalog, r1)
  {
    var a := Merge(Merge(subs, catalog, r1), catalog, r2);
    var b := Merge(Merge(subs, catalog, r2), catalog, r1);
    var k1, k2 := AcceptedKeys(catalog, r1), AcceptedKeys(catalog, r2);
    assert a.Keys == subs.Keys + k1 + k2;
    assert b.Keys == subs.Keys + k2 + k1;
    forall o | o in a ensures a[o] == b[o] {
      MergeCommutesAt(subs, catalog, r1, r2, o);
    }
    SameEntries(a, b);
  }

  lemma SameEntries(a: map<string, set<string>>, b: map<string, set<string>>)
    requires a.Keys == b.Keys
    requires forall o :: o in a ==> a[o] == b[o]
    ensures a == b
  {
  }

  /** An object whose table entry is "all fields" keeps it, whatever is merged. */
  lemma AllFieldsSticky(subs: map<string, set<string>>, catalog: map<string, set<string>>,
                        req: map<string, set<string>>, o: string)
    requires o in subs && subs[o] == {}
    ensures Merge(subs, catalog, req)[o] == {}
  {
  }

  /** Every field in the table belongs to its object in the catalog. */
  ghost predicate WithinCatalog(subs: map<string, set<string>>, catalog: map<string, set<string>>)
  {
    forall o :: o in subs ==> o in catalog && subs[o] <= catalog[o]
  }

  /** Merging keeps the table within the catalog: unknown objects and unknown
      fields never enter it. */
  lemma MergeWithinCatalog(subs: map<string, set<string>>, catalog: map<string, set<string>>,
                           req: map<string, set<string>>)
    requires WithinCatalog(subs, catalog)
    ensures WithinCatalog(Merge(subs, catalog, req), catalog)
  {
  }

  /** A key the catalog does not know, such as the `response_template` that
      the subscription handler leaves in its arguments, has no effect. */
  lemma UnknownKeySkipped(subs: map<string, set<string>>, catalog: map<string, set<string>>,
                          req: map<string, Json>, key: string)
    requires FieldLists(req, catalog)
    requires key !in catalog
    ensures Merge(subs, catalog, Requests(req, catalog)) == Merge(subs, catalog, Requests(req - {key}, catalog))
  {
    assert Requests(req, catalog) == Requests(req - {key}, catalog);
  }

  /** The status fields a request for one object asks for, callables excluded. */
  function SelectFields(status: map<string, StatusValue>, fields: set<string>): (r: map<string, Json>)
    ensures forall k :: k in r ==> k in status && status[k] == Value(r[k]) && (fields == {} || k in fields)
    ensures forall k :: k in status && status[k].Value? && (fields == {} || k in fields) ==> k in r
  {
    map k | k in status && status[k].Value? && (fields == {} || k in fields) :: status[k].v
  }

  /** A table entry that covers a request delivers every field the request
      selects, with the same value. */
  lemma SelectCovered(status: map<string, StatusValue>, a: set<string>, b: set<string>)
    requires Covers(a, b)
    ensures forall k :: k in SelectFields(status, b) ==>
              k in SelectFields(status, a) && SelectFields(status, a)[k] == SelectFields(status, b)[k]
  {
  }

  /** What a merged subscription delivers: every field the request asked for
      (and the catalog knows) reaches the status push, with its value, however
      the table looked before. */
  lemma PushCarriesSubscribedFields(subs: map<string, set<string>>, catalog: map<string, set<string>>,
                                    req: map<string, set<string>>, status: map<string, StatusValue>, o: string)
    requires o in AcceptedKeys(catalog, req)
    ensures var merged := Merge(subs, catalog, req);
            forall k :: k in SelectFields(status, ValidFields(catalog, o, req[o])) ==>
              k in SelectFields(status, merged[o]) &&
              SelectFields(status, merged[o])[k] == status[k].v
  {
    var merged := Merge(subs, catalog, req);
    SelectCovered(status, merged[o], ValidFields(catalog, o, req[o]));
  }
}

=== FILE: wrappers.dfy ===
/** Optional values and results with an error, used where the source returns
    `None` or raises. */
module Wrappers {

  datatype Option<+T> = None | Some(value: T)

  datatype Result<+R, +E> = Success(value: R) | Failure(error: E)
}
